=== FILE: README.md ===
# CSV rows to store records: a Dafny model of gridy's loaders

The gridy repository benchmarks HBase against SQLite on a social-media
engagement CSV. At its core is the code that turns a CSV row (a
`csv.DictReader` dictionary from header to text) into what a store keeps.
This project models that code and proves properties of the model:

- **The optimised HBase loader** (`hbase_loader.py`). It does four things:
  - builds the row key `platform_postid8_counter08`;
  - stores twelve text fields under family `cf`, stripped, truncated per
    field, and omitted when blank or a sentinel;
  - stores six metrics under family `metrics`, using a conversion that
    never fails;
  - in the sequential load, turns every row into a put and sends the puts
    in batches of 2000.
- **The SQLite baseline loader** (`sqlite_loader.py`). It does four
  things:
  - `clean_value` and `convert_to_number`, which turn sentinels into NULL;
  - the 18-column dictionary;
  - the parameter tuple of the INSERT;
  - the counters of `load_data_basic`, which commits every 1000 successes
    and once more at the end.
- **The benchmark experiment** (`performance-experiment.py`):
  - cleaning of column names;
  - keyword-driven inference of the SQL schema, where the first
    post-id-like column becomes the primary key;
  - the fallback schema with a synthetic `id` key;
  - the naive HBase load, keyed by `Post ID` or by `post_<n>`, with every
    other field under `cf` and a send every 1000 rows;
  - the `post_id` de-duplication before `to_sql`;
  - the hand-written per-platform aggregation over a scan.
- **The MapReduce job** (`AvgLikesMapper.java`, `AvgLikesReducer.java`).
  The mapper emits `(trim(platform), Long.parseLong(trim(likes)))` or
  nothing. The reducer sums in a wrapping `long`, counts, and puts the
  average to `cf:avg_likes`.
- **The insert scripts** (`insert.py`, `insert-v2.py`). Each row becomes
  one put keyed by its key field. The puts merge into an HBase table
  (last writer wins per cell). A missing key field raises `KeyError`,
  and a key HBase refuses (empty, or longer than 32767) stops the script
  the same way.

Strings are `seq<char>`. Text is read through explicit models of three
operations:

- Python's `str.strip()`, with the ASCII whitespace set;
- Java's `String.trim()`, which drops every character up to and including
  the space;
- Python's `int()` in base 10, which takes an optional sign and digit
  groups joined by single underscores.

Java's `Long.parseLong` is modelled with its 64-bit range, and Java `long`
addition wraps modulo 2^64. Python's `float()` is modelled as a recogniser
of the literals it accepts. The float value itself is not computed: where
a float is produced, the model carries the literal text the float came
from.

There is no I/O in the model. A CSV file is a `seq<Row>`. A store is a
map. The database's accept/reject verdict for each INSERT is an input.
HBase stores no row without a cell, so a put with no cells leaves the
table unchanged. HBase also refuses a row key that is empty (`Row length
is 0`) or longer than 32767 (`Row length N is > 32767`). A put with such a
key fails to build, and a batch holding one fails as a whole. That check
belongs to HBase, outside this repository, and the model takes it as a
fact about the store: `Columns.ValidRowKey`. An empty key reaches it from
a CSV field that is present but empty, and from a MapReduce platform that
is blank; an over-long one from a field that runs on, as an unclosed quote
makes it.

The modules are:

- `Wrappers`: `Option`, `dict.get`.
- `Text`: strip, trim, case, search, split.
- `Numbers`: decimal rendering and parsing.
- `Columns`: `family:qualifier` names and the one-family put.
- `Batching`: chunking, counting sends, and shaping rows.
- One module per source file:
  - `HBaseLoader`;
  - `SqliteLoader`;
  - `ExperimentSchema`, `ExperimentLoad` and `ExperimentAggregate`;
  - `AvgLikes`;
  - `Insert`.

## Model

| member | source | states |
|---|---|---|
| HBaseLoader.RowKey | hbase_vs_sqlite_experiment/hbase_loader.py:120-134 | the key splits at its last underscore into `platform_postid` and a zero-padded counter of at least 8 digits that reads back as the counter; the platform part has at most 10 characters and the post part at most 8 |
| HBaseLoader.RowKeyInjective | hbase_vs_sqlite_experiment/hbase_loader.py:132 | rows with different counters get different keys, whatever the rows hold |
| HBaseLoader.RowKeyExample | hbase_vs_sqlite_experiment/hbase_loader.py:120-134 | platform `Instagram`, post `abc12345678` and counter 3 give `Instagram_abc12345_00000003` |
| HBaseLoader.PlatformDefault | hbase_vs_sqlite_experiment/hbase_loader.py:122 | `unknown` replaces an absent platform only; a present but empty platform stays empty |
| HBaseLoader.TextValue | hbase_vs_sqlite_experiment/hbase_loader.py:157-170 | a text field is kept exactly when its stripped text is not empty, `nan` or `none` in any case; the kept value is a non-empty prefix of the stripped text within the field's budget, starts with a non-blank character, and is the whole stripped text when that fits, otherwise exactly its first budget characters |
| HBaseLoader.MappedColumns | hbase_vs_sqlite_experiment/hbase_loader.py:157-186 | for a mapping with distinct qualifiers, `family:qualifier` is written exactly when the field's reader yields a value and holds that value; no other column is written |
| HBaseLoader.MappingsDistinct | hbase_vs_sqlite_experiment/hbase_loader.py:142-181 | the qualifiers of each of the two mapping tables are pairwise distinct, so no field overwrites another |
| HBaseLoader.TextColumns | hbase_vs_sqlite_experiment/hbase_loader.py:157-170 | the `cf` half has a column for a mapped text field exactly when the field is kept, holding its kept value; every value is non-blank |
| HBaseLoader.SafeConvert | hbase_vs_sqlite_experiment/hbase_loader.py:203-228 | sentinels (`''`, `nan`, `None`, `null`, exact case) and text `float()` rejects give 0; an `int()` literal strictly inside ±2147483647 gives itself; any other `float()` literal, including an out-of-range or non-integer one, takes the float branch on the stripped literal |
| HBaseLoader.SafeConvertWholeRoundTrip | hbase_vs_sqlite_experiment/hbase_loader.py:209-217 | a whole number inside the 32-bit bound, written as Python writes it, converts back to itself |
| HBaseLoader.IntTextNotSentinel | hbase_vs_sqlite_experiment/hbase_loader.py:205-206 | `str(n)` of a whole number is never one of the sentinels that `_safe_convert` maps to 0 |
| HBaseLoader.MetricColumns | hbase_vs_sqlite_experiment/hbase_loader.py:183-186 | every mapped metric has a `metrics` column, whether or not the field is present, holding the text of the field's conversion, with `'0'` for an absent field |
| HBaseLoader.MetricCellNonBlank | hbase_vs_sqlite_experiment/hbase_loader.py:186-194 | the text of a converted metric never strips to nothing, so the encoding filter keeps it |
| HBaseLoader.EncodeNonBlank | hbase_vs_sqlite_experiment/hbase_loader.py:192-201 | the byte-encoding step keeps an entry if and only if its value strips to something, and keeps it unchanged |
| HBaseLoader.EncodeNonBlankKeepsAll | hbase_vs_sqlite_experiment/hbase_loader.py:192-201 | a map whose every value is non-blank passes through the encoding step unchanged |
| HBaseLoader.RecordSplits | hbase_vs_sqlite_experiment/hbase_loader.py:138-201 | the record is exactly the `cf` half and the `metrics` half side by side, and the two halves share no column |
| HBaseLoader.RecordText | hbase_vs_sqlite_experiment/hbase_loader.py:157-170 | in the record, a text field has its column exactly when it is kept, and the column holds its kept value |
| HBaseLoader.RecordMetric | hbase_vs_sqlite_experiment/hbase_loader.py:183-186 | in the record, every metric has its column, holding its conversion |
| HBaseLoader.RecordOnlyMapped | hbase_vs_sqlite_experiment/hbase_loader.py:142-186 | every column of the record belongs to one of the two mapping tables |
| HBaseLoader.RecordLocal | hbase_vs_sqlite_experiment/hbase_loader.py:157-184 | two rows that agree on the mapped fields give the same record |
| HBaseLoader.PrepareSimpleData | hbase_vs_sqlite_experiment/hbase_loader.py:136-201 | `prepare_simple_data` never returns an empty record, and every stored value is non-blank |
| HBaseLoader.PrepareSimpleDataText | hbase_vs_sqlite_experiment/hbase_loader.py:157-170 | each of the twelve text fields has its `cf` column exactly when it is kept, holding the kept value |
| HBaseLoader.PrepareSimpleDataMetric | hbase_vs_sqlite_experiment/hbase_loader.py:183-186 | each of the six metrics always has its `metrics` column, holding its conversion |
| HBaseLoader.PrepareSimpleDataOnlyMapped | hbase_vs_sqlite_experiment/hbase_loader.py:142-186 | no column outside the two mapping tables is written |
| HBaseLoader.StoredTextBounded | hbase_vs_sqlite_experiment/hbase_loader.py:161-168 | a stored text is non-empty and fits its field's budget: 500 for content, 200 for interests, 100 for location, 50 otherwise |
| HBaseLoader.PrepareSimpleDataIgnoresOtherFields | hbase_vs_sqlite_experiment/hbase_loader.py:142-186 | fields outside the 18 mapped ones do not affect the record |
| HBaseLoader.LoadSequential | hbase_vs_sqlite_experiment/hbase_loader.py:314-346 | every row is counted and becomes the put keyed by `RowKey(row, index)`, none is dropped, no two puts share a key, and the puts go out in full batches of 2000 followed by one shorter non-empty batch, ceil(n/2000) batches in all |
| Batching.ShapeRows | hbase_vs_sqlite_experiment/hbase_loader.py:314-322 | every row is counted; the queue is the reference `KeptShapes`, which is the shapes that pass the filter in row order; when every row passes, the queue is the rows' shapes |
| Batching.KeptShapesPass | hbase_vs_sqlite_experiment/hbase_loader.py:318-322 | the reference queue holds only shapes that pass, and no more of them than there are rows |
| Batching.KeptShapesAll | hbase_vs_sqlite_experiment/hbase_loader.py:318-322 | when every shape passes, the reference queue is every row's shape, in order |
| Batching.Chunk | hbase_vs_sqlite_experiment/hbase_loader.py:325-346 | batches concatenate back to the queued items, all but the last are full, none is empty, and there are ceil(n/size) of them |
| HBaseLoader.ShapedPutsKept | hbase_vs_sqlite_experiment/hbase_loader.py:319-322 | every row's record has columns, so the `if data` filter never drops a row |
| HBaseLoader.ShapedKeysDistinct | hbase_vs_sqlite_experiment/hbase_loader.py:314-322 | the puts of a file, row `i` keyed by `RowKey(row, i)`, have pairwise distinct keys |
| Batching.FinishChunking | hbase_vs_sqlite_experiment/hbase_loader.py:341-346 | full batches followed by the shorter open batch, sent only when it is non-empty, chunk the records into ceil(n/size) batches |
| Batching.ChunkCount | hbase_vs_sqlite_experiment/hbase_loader.py:341-346 | any such chunking has ceil(n/size) batches, and it has none exactly when there are no items |
| Batching.SendByCount | performance-experiment.py:247-272 | the loop fails exactly when some record is refused. With none refused, sending when the row count is a multiple of the size, and once more when it is not, splits the puts into full sends and one shorter non-empty last send. Otherwise the delivered sends are the `first / size` full sends that carry the records before the send holding the first refused one |
| Columns.Encode | insert.py:17-18 | the encoded name is the family, a colon, then the qualifier |
| Columns.EncodeInjective | insert.py:17-18 | family names without a colon make encoding injective, even when qualifiers contain colons |
| Columns.CfColumns | insert.py:17 | every field except the key field becomes `cf:<field>` with its text unchanged; the key field has no column and nothing else is written |
| Columns.CfColumnsCount | insert.py:17 | there is one column per field other than the key field, so no field is lost or merged |
| Columns.CfColumnsRestore | insert.py:16-18 | reading the `cf` columns back and setting the key field to the row key gives the original row |
| Insert.PutRow | insert.py:18 | an accepted put, which needs a key HBase accepts, merges its cells into the key's row, replacing cells of the same column and keeping the others; a put without cells stores nothing; no other row changes |
| Insert.FirstUnusable | insert.py:15-18 | the index of the first row that lacks the key field or has a key HBase refuses (empty or longer than 32767): every row before it can be put and the row at it cannot |
| Insert.StopOf | insert.py:15-18 | a load ends normally exactly when every row has a key of 1 to 32767 characters |
| Insert.InsertRowsStops | insert.py:15-18 | the load stops at its first row that lacks the key field (`KeyError`) or has a key HBase refuses (empty or longer than 32767), with that reason, and ends normally otherwise; the table it leaves is the complete load of the rows before that row |
| Insert.InsertV1RefusedPostId | insert.py:16-18 | a row whose `Post ID` is empty or longer than 32767, after rows whose keys HBase accepts, stops the first script with the HBase refusal, and the table keeps only the puts of the rows before it |
| Insert.CfColumnsEmpty | insert.py:17 | a row's put has no cells exactly when the row has no field besides the key |
| Insert.InsertRowsKeys | insert.py:15-18 | a complete load, where every row has a key HBase accepts, adds exactly the keys of the rows that have a field besides the key, so rows sharing a key collapse into one stored row |
| Insert.InsertRowsKeepsOthers | insert.py:15-18 | a stored row whose key no later row uses is left unchanged, however the load ends |
| Insert.InsertRowsLastWriterWins | insert.py:15-18 | once a row has been put (it and every row before it have a key HBase accepts), every non-key field of it is stored under `cf:<field>` of its key's row, unchanged, unless a later row uses that key |
| Insert.InsertV1Count | insert.py:22 | after a complete first-script load, where every `Post ID` has 1 to 32767 characters, the row count of the scan is the number of distinct stored keys |
| Insert.InsertConfigs | insert-v2.py:19-34 | a run keeps every table it started with, and every table stays free of empty rows |
| Insert.InsertConfigsStops | insert-v2.py:19-34 | the second script ends as its first configured file that does not load completely ends, with `KeyError` or the HBase refusal, and ends normally exactly when every row of every configured file has a key of 1 to 32767 characters |
| Insert.V2GeneralisesV1 | insert-v2.py:19-34 | a one-entry list naming the first script's table and key field gives the first script's table and outcome |
| Insert.V2Tables | insert-v2.py:6-34 | a complete run, where every row of both files has a `Post ID` HBase accepts, puts each file into its own table, holding exactly that file's keys of rows with a field besides the key |
| SqliteLoader.CleanValue | hbase_vs_sqlite_experiment/sqlite_loader.py:108-112 | NULL exactly for an absent, empty or sentinel value (`''`, `nan` or `None` after stripping); otherwise the stripped text, which is non-empty and not a sentinel |
| SqliteLoader.CleanValueIdempotent | hbase_vs_sqlite_experiment/sqlite_loader.py:108-112 | cleaning a cleaned value changes nothing |
| SqliteLoader.ConvertToNumber | hbase_vs_sqlite_experiment/sqlite_loader.py:114-124 | sentinels are NULL; text with a `.` is a float exactly when its stripped text is a float literal, and other text is the integer `int()` reads, or NULL when `int()` raises |
| SqliteLoader.ConvertToNumberIntRoundTrip | hbase_vs_sqlite_experiment/sqlite_loader.py:119-122 | an integer written as Python writes it converts back to itself |
| SqliteLoader.ExponentWithoutPointIsNull | hbase_vs_sqlite_experiment/sqlite_loader.py:119-124 | digits, `e`, digits (such as `1e5`) have no point, so they go to `int()`, which raises, and are stored as NULL |
| SqliteLoader.NumberImpliesCleanText | hbase_vs_sqlite_experiment/sqlite_loader.py:108-124 | a value that converts to a number is also kept by `clean_value`, and a float's literal is exactly the cleaned text |
| SqliteLoader.MissingFieldIsNull | hbase_vs_sqlite_experiment/sqlite_loader.py:128-146 | a field missing from the row is NULL under either cleaner |
| SqliteLoader.Prepared | hbase_vs_sqlite_experiment/sqlite_loader.py:128-147 | for fields with distinct column names, the dictionary has exactly their columns, each holding its field's value |
| SqliteLoader.InsertColumnsDistinct | hbase_vs_sqlite_experiment/sqlite_loader.py:162-167 | the INSERT names 18 pairwise distinct columns |
| SqliteLoader.InsertColumnsMatchFields | hbase_vs_sqlite_experiment/sqlite_loader.py:128-167 | the INSERT lists the dictionary's columns in the dictionary's order |
| SqliteLoader.PreparedFieldsDistinct | hbase_vs_sqlite_experiment/sqlite_loader.py:128-147 | the dictionary's keys are pairwise distinct, so no entry is overwritten |
| SqliteLoader.PrepareData | hbase_vs_sqlite_experiment/sqlite_loader.py:126-147 | the dictionary's keys are exactly the INSERT's columns, each holding its field's cleaned or converted value |
| SqliteLoader.InsertTuple | hbase_vs_sqlite_experiment/sqlite_loader.py:183-202 | the tuple has 18 entries, and entry `i` is the dictionary's value for the INSERT's column `i` |
| SqliteLoader.RowTuple | hbase_vs_sqlite_experiment/sqlite_loader.py:179-202 | parameter `i` of the INSERT is the value of field `i` of the row |
| SqliteLoader.SelectedAll | hbase_vs_sqlite_experiment/sqlite_loader.py:181-204 | when every insert succeeds, every tuple is inserted |
| SqliteLoader.SelectedFromAccepted | hbase_vs_sqlite_experiment/sqlite_loader.py:181-213 | every inserted tuple is one whose insert succeeded |
| SqliteLoader.InsertAll | hbase_vs_sqlite_experiment/sqlite_loader.py:175-216 | every row is counted, the successful inserts are exactly the accepted tuples in order, and there is one commit per 1000 successes plus a final one |
| SqliteLoader.LoadBasic | hbase_vs_sqlite_experiment/sqlite_loader.py:149-216 | the accepted rows' tuples are inserted in order; successes never exceed rows, and the counting loop it runs keeps that bound after every row; when every insert succeeds, row `i`'s tuple is insert `i` |
| SqliteLoader.CountTrueBound | hbase_vs_sqlite_experiment/sqlite_loader.py:175-213 | after any prefix of the database's verdicts the success count is at most the row count, so `successful_records <= total_records` at every step |
| Numbers.NatToStringRoundTrip | performance-experiment.py:247 | reading back the decimal rendering of `n` gives `n` |
| Numbers.NatToStringInjective | performance-experiment.py:316 | different numbers render differently |
| Numbers.ZeroPadded | hbase_vs_sqlite_experiment/hbase_loader.py:132 | `{n:08d}` is all digits, at least 8 long, and is `str(n)` left-padded with zeros |
| Numbers.ZeroPaddedRoundTrip | hbase_vs_sqlite_experiment/hbase_loader.py:132 | the padded counter reads back as the counter |
| Numbers.PyInt | hbase_vs_sqlite_experiment/sqlite_loader.py:122 | `int()` succeeds exactly on text that strips to an optional sign followed by digit groups joined by single underscores |
| Numbers.PyIntRoundTrip | performance-experiment.py:499 | `int(str(i)) == i` |
| Numbers.IntLiteralIsFloatLiteral | hbase_vs_sqlite_experiment/hbase_loader.py:211-217 | every literal `int()` accepts, `float()` accepts too |
| Numbers.ParseJavaLong | mapreduce/HBaseMapReduce/HBaseMapReduce/src/main/java/org/example/AvgLikesMapper.java:26 | `Long.parseLong` succeeds if and only if the text is an optional sign and at least one ASCII digit whose signed value lies in the 64-bit range, and then yields that value; no whitespace is skipped |
| Numbers.ParseJavaLongRejectsOutOfRange | mapreduce/HBaseMapReduce/HBaseMapReduce/src/main/java/org/example/AvgLikesMapper.java:26 | the decimal text of any number outside the `long` range is rejected |
| Numbers.ParseJavaLongRoundTrip | mapreduce/HBaseMapReduce/HBaseMapReduce/src/main/java/org/example/AvgLikesMapper.java:26 | every `long` written in decimal parses back to itself |
| Text.TrimByPadded | mapreduce/HBaseMapReduce/HBaseMapReduce/src/main/java/org/example/AvgLikesMapper.java:24-26 | trimming text that has blanks only around a non-blank core gives the core |
| Text.StripIdempotent | hbase_vs_sqlite_experiment/sqlite_loader.py:112 | stripping stripped text changes nothing |
| Text.DeleteCharAppend | performance-experiment.py:171 | `replace(c, '')` works piece by piece, so the characters that stay keep their order |
| Text.DeleteCharSingle | performance-experiment.py:171 | `replace(c, '')` drops a lone `c` and keeps any other character |
| Text.Take | hbase_vs_sqlite_experiment/hbase_loader.py:122-129 | `s[:n]` is the prefix of length `min(n, len(s))` |
| Text.SplitLastJoin | hbase_vs_sqlite_experiment/hbase_loader.py:132 | joining with `_` a tail that has no `_` splits back at the last `_` into the two parts |
| ExperimentSchema.CleanName | performance-experiment.py:171 | a cleaned name has no upper-case letter, space, hyphen or parenthesis, and is no longer than the original; a name without parentheses keeps its length, with each space and hyphen turned into `_` and each letter lower-cased |
| ExperimentSchema.CleanNameAppend | performance-experiment.py:171 | cleaning works piece by piece: cleaning a concatenation concatenates the cleanings |
| ExperimentSchema.CleanNameChar | performance-experiment.py:171 | a single parenthesis cleans to nothing; any other character cleans to `_` if it is a space or hyphen, else to its lower case |
| ExperimentSchema.CleanNameIdempotent | performance-experiment.py:298-299 | cleaning a cleaned name changes nothing, so the `to_sql` names match the schema's |
| ExperimentSchema.CleanNameFixesCleanNames | performance-experiment.py:207-208 | a name cleans to itself exactly when it has no upper-case letter, space, hyphen or parenthesis |
| ExperimentSchema.TypeByKeywords | performance-experiment.py:183-190 | INTEGER exactly when a count keyword occurs, or an age keyword occurs without a ratio keyword; REAL exactly when a ratio keyword occurs without a count keyword; TEXT otherwise |
| ExperimentSchema.InferFromColumn | performance-experiment.py:169-190 | column `i` is named by its cleaned name; it is the key exactly when it is the first post-id-like column; key and id columns are TEXT, and the others take their keyword type |
| ExperimentSchema.InferSchemaOneKey | performance-experiment.py:176-179 | no two columns are both primary keys |
| ExperimentSchema.InferSchemaKeyExists | performance-experiment.py:176-179 | the first post-id-like column is the key and no other column is |
| ExperimentSchema.PostIdExample | performance-experiment.py:177-178 | `Post ID` becomes `post_id TEXT PRIMARY KEY` |
| ExperimentSchema.FallbackSchema | performance-experiment.py:340-360 | the fallback has one more column than the file: first the synthetic `id INTEGER PRIMARY KEY`, then the file's columns |
| ExperimentSchema.FallbackColumns | performance-experiment.py:342-352 | each fallback column has its cleaned name and its keyword type, and none is a key |
| ExperimentSchema.FallbackAgreesWithInferred | performance-experiment.py:342-352 | the fallback keeps the inferred names, drops every key, and agrees on the type of every column that is neither a key nor mentions `id` |
| ExperimentLoad.FallbackKey | performance-experiment.py:247 | the fallback key is `post_` followed by the row count |
| ExperimentLoad.FallbackKeyInjective | performance-experiment.py:247 | rows without a `Post ID` get pairwise distinct keys |
| ExperimentLoad.ExperimentPut | performance-experiment.py:246-257 | the key is the `Post ID` if present, else the fallback key; every other field is under `cf:<field>` unchanged; nothing else is written |
| ExperimentLoad.ExperimentPutRestores | performance-experiment.py:246-257 | a row with a `Post ID` can be read back from its put |
| ExperimentLoad.LoadToHBase | performance-experiment.py:224-272 | an empty file fails with nothing sent. Otherwise every row becomes its put, and the load succeeds exactly when every put has a key of 1 to 32767 characters. It then records every row, and the puts go out in sends of 1000 with a shorter last send. When some key is refused the load fails, and only the full sends before the one holding the first refused key were delivered |
| ExperimentLoad.DuplicateCount | performance-experiment.py:306 | `duplicated().sum()` is zero exactly when the ids are pairwise distinct |
| ExperimentLoad.Suffixed | performance-experiment.py:316 | the suffixed id splits at its last underscore back into the id and the row number |
| ExperimentLoad.Dedupe | performance-experiment.py:305-317 | ids without repeats are kept; otherwise every id gets `_<row>` appended, from which the id and row are recovered |
| ExperimentLoad.DedupeDistinct | performance-experiment.py:305-317 | after de-duplication the ids are pairwise distinct |
| ExperimentLoad.DedupeIdempotent | performance-experiment.py:305-317 | de-duplicating once more changes nothing |
| ExperimentAggregate.LikesOf | performance-experiment.py:499 | missing or empty likes count as 0; other text is what `int()` reads, or a failure |
| ExperimentAggregate.CountOfPositive | performance-experiment.py:501-505 | a platform has a positive count exactly when it occurs in the scan |
| ExperimentAggregate.Bump | performance-experiment.py:501-505 | counting a row adds its platform to the keys and nothing else |
| ExperimentAggregate.BumpStep | performance-experiment.py:501-505 | counting one more row keeps every platform's entry equal to its reference sum and count |
| ExperimentAggregate.GroupSum | performance-experiment.py:495-505 | the group-by fails exactly when some value cannot be read; otherwise it has one entry per key that occurs, holding that group's sum and count; the counts add up to the number of rows |
| ExperimentAggregate.Aggregate | performance-experiment.py:495-505 | the scan loop fails exactly when some row's likes do not parse; otherwise it has one entry per platform that occurs, holding that platform's likes sum and row count; the platforms' counts add up to the number of scanned rows |
| ExperimentAggregate.SumCountsCoversRows | performance-experiment.py:495-505 | every row falls in exactly one group, so the counts of a set of groups covering every key that occurs add up to the number of rows |
| ExperimentAggregate.SumCountsStep | performance-experiment.py:503-505 | one more row adds one to the summed counts exactly when its group is among those summed |
| AvgLikes.MapRow | mapreduce/HBaseMapReduce/HBaseMapReduce/src/main/java/org/example/AvgLikesMapper.java:17-32 | emits exactly when both cells are present and the trimmed likes parse as a `long`; the emission carries the trimmed platform and the parsed likes |
| AvgLikes.MapRowSkipsOutOfRange | mapreduce/HBaseMapReduce/HBaseMapReduce/src/main/java/org/example/AvgLikesMapper.java:25-30 | a row whose likes are the decimal text of a number outside the `long` range is skipped |
| AvgLikes.MapRowBlankPlatform | mapreduce/HBaseMapReduce/HBaseMapReduce/src/main/java/org/example/AvgLikesMapper.java:23-27 | a row whose platform is blank and whose likes are a `long` is emitted under the empty key |
| AvgLikes.MapRowReadsLikes | mapreduce/HBaseMapReduce/HBaseMapReduce/src/main/java/org/example/AvgLikesMapper.java:23-27 | likes written as a `long` with blanks around it are emitted as exactly that number, under a platform with no blanks around it |
| AvgLikes.WrapLong | mapreduce/HBaseMapReduce/HBaseMapReduce/src/main/java/org/example/AvgLikesReducer.java:20 | the wrapped sum is a `long` congruent to the exact sum modulo 2^64 |
| AvgLikes.WrapAdd | mapreduce/HBaseMapReduce/HBaseMapReduce/src/main/java/org/example/AvgLikesReducer.java:19-22 | adding to a wrapped sum is the same as wrapping the exact sum, so overflow in the middle of the loop does not matter |
| AvgLikes.WrapInRange | mapreduce/HBaseMapReduce/HBaseMapReduce/src/main/java/org/example/AvgLikesReducer.java:16-20 | a value already in range is not changed by wrapping |
| AvgLikes.Reduce | mapreduce/HBaseMapReduce/HBaseMapReduce/src/main/java/org/example/AvgLikesReducer.java:13-31 | nothing without values. With values, a platform that is empty or longer than 32767 makes the put fail; otherwise the put goes to the platform's row and `cf:avg_likes`, with the count of the values and their exact sum wrapped to a `long` |
| AvgLikes.ReduceExactWithoutOverflow | mapreduce/HBaseMapReduce/HBaseMapReduce/src/main/java/org/example/AvgLikesReducer.java:24-25 | when the exact sum fits in a `long`, the average is the true mean |

## Left out

- I/O is not modelled: files, the Thrift connection, table creation, logging, timing and performance metrics. A CSV file is a sequence of rows.
- `load_batch_with_retry` (`hbase_loader.py` lines 230-294) is not modelled. This covers its retries, its micro-batches of 500 and its count of successful records. Only the batches it is handed are modelled.
- Short and long CSV lines are not modelled: `csv.DictReader` fills missing fields with `None` and gathers extra ones under the key `None`. Every row here is a map from string to string.
- Case mapping and whitespace are ASCII only. Python's `lower()`, `upper()` and `strip()` also act on non-ASCII characters, and Java's `Long.parseLong` accepts non-ASCII digits.
- Float values are not computed. This covers `float()`, `round(x, 2)`, `str()` of a float, and the double division of the reducer with its `String.valueOf`. The model keeps the literal text a float came from, and the average as an exact quotient.
- HBaseLoader.SafeConvert: a whole-valued float literal such as `3.0` or `1e3` takes the float branch in the model. The source returns it as an `int`. Only `int()` literals are claimed to give whole numbers.
- AvgLikes.Reduce: the `long` counter is not wrapped; it would need 2^63 values to overflow.
- Automatic sends are not modelled. happybase's `batch(batch_size=...)` sends on its own when enough mutations pile up. The model records only the explicit sends. Every put is sent exactly once in either case when all keys are non-empty. When a key is empty, which puts reach HBase before the failure depends on those automatic sends too.
- The database's verdict on each INSERT is an input to `LoadBasic`. Constraint violations and type errors are not modelled.
- `pandas.read_csv` is not modelled: its type inference and how `astype(str)` renders a numeric `post_id`. ExperimentLoad.Dedupe works on the ids as text and models only the `post_id` column; `to_sql` itself is not modelled.
- The SQL side of the aggregation benchmark is not modelled. That is the `GROUP BY` query after line 509 of `performance-experiment.py`.
- The schema is modelled as column definitions, not as the text of `CREATE TABLE`. The SQL errors that a name clash would raise are not modelled, such as a column named `id` in the fallback schema, or two headers that clean to the same name.
- The sample value read for each column (`performance-experiment.py` line 174) is never used by the source, so it is not modelled.
- The text sentinels follow the code. A text field is omitted when its stripped text is empty, `nan` or `none` in any letter case; `null` is stored as text. Only the numeric conversion treats `null`, and only with that exact spelling, together with `''`, `nan` and `None`.
- ExperimentLoad.LoadToHBase: `puts` is the put of every row even when the load fails. The source stops reading rows at the failing send, so it never builds the puts after it. The delivered sends are stated exactly either way.
- The row-key refusal is HBase's own check (the `Put` constructor and the Thrift server's batch mutation), outside this repository. The model takes it as a fact: a put or a batch holding a row key that is empty or longer than 32767 is refused as a whole.
- Columns.ValidRowKey: HBase measures a row key in UTF-8 bytes, the model in characters. The two agree on ASCII text, which is all the model's text handling covers; a non-ASCII key near the limit could be refused by HBase and accepted by the model.
- Insert.InsertV1: the first script's table starts empty in the model. A table left over from an earlier run would add its rows to the count.

=== FILE: avg_likes.dfy ===
/**
  The MapReduce job that averages likes per platform. The mapper reads
  `cf:Platform` and `cf:Likes` of one stored row and emits the trimmed
  platform with the likes parsed as a Java `long`, or nothing when either
  cell is missing or the likes do not parse. The reducer adds up one
  platform's likes in a `long` accumulator, which wraps around on
  overflow, counts them, and writes the average to `cf:avg_likes` of the
  platform's row.
 */
module AvgLikes {
  import opened Wrappers
  import opened Text
  import opened Numbers
  import opened Columns

  /** A Java `long`. */
  type Long = x: int | LongMin <= x <= LongMax

  /** The cells of one scanned row. */
  type Cells = map<Column, string>

  const PlatformColumn: Column := Column("cf", "Platform")
  const LikesColumn: Column := Column("cf", "Likes")
  const AvgColumn: Column := Column("cf", "avg_likes")

  /** One `context.write(platform, likes)` of the mapper. */
  datatype Emit = Emit(platform: string, likes: Long)

  // -------------------------------------------------------------- mapper

  /**
    `AvgLikesMapper.map`: an emission exactly when both cells are present
    and the trimmed likes text is a Java `long`; the platform is emitted
    trimmed. At most one emission per row.
   */
  function MapRow(result: Cells): (e: Option<Emit>)
    ensures e.Some? <==> PlatformColumn in result && LikesColumn in result && ParseJavaLong(JavaTrim(result[LikesColumn])).Some?
    ensures e.Some? ==> e.value.platform == JavaTrim(result[PlatformColumn])
    ensures e.Some? ==> Some(e.value.likes as int) == ParseJavaLong(JavaTrim(result[LikesColumn]))
  {
    if PlatformColumn in result && LikesColumn in result then
      var platform := JavaTrim(result[PlatformColumn]);
      var likes := ParseJavaLong(JavaTrim(result[LikesColumn]));
      if likes.Some? then Some(Emit(platform, likes.value)) else None
    else None
  }

  /**
    A row whose likes are a `long` written in decimal, with any blanks
    around it, is emitted with exactly that number, under a platform name
    that has no blanks around it.
   */
  lemma MapRowReadsLikes(result: Cells, n: Long, before: string, after: string)
    requires PlatformColumn in result
    requires forall k :: 0 <= k < |before| ==> IsJavaBlank(before[k])
    requires forall k :: 0 <= k < |after| ==> IsJavaBlank(after[k])
    requires LikesColumn in result && result[LikesColumn] == before + IntToString(n) + after
    ensures MapRow(result).Some?
    ensures MapRow(result).value.likes == n
    ensures JavaTrim(MapRow(result).value.platform) == MapRow(result).value.platform
  {
    var digits := IntToString(n);
    IntToStringShape(n);
    TrimByPadded(before, digits, after, IsJavaBlank);
    ParseJavaLongRoundTrip(n);
    TrimByFixed(JavaTrim(result[PlatformColumn]), IsJavaBlank);
  }

  /** A row whose likes are the decimal text of a number outside the `long` range is skipped. */
  lemma MapRowSkipsOutOfRange(result: Cells, i: int)
    requires i < LongMin || LongMax < i
    requires LikesColumn in result && result[LikesColumn] == IntToString(i)
    ensures MapRow(result) == None
  {
    var digits := IntToString(i);
    IntToStringShape(i);
    TrimByPadded("", digits, "", IsJavaBlank);
    assert "" + digits + "" == digits;
    ParseJavaLongRejectsOutOfRange(i);
  }

  /**
    A present but blank `cf:Platform` cell is emitted as the empty
    platform, so the reducer can be handed the empty key.
   */
  lemma MapRowBlankPlatform(result: Cells, n: Long)
    requires PlatformColumn in result && forall k :: 0 <= k < |result[PlatformColumn]| ==> IsJavaBlank(result[PlatformColumn][k])
    requires LikesColumn in result && result[LikesColumn] == IntToString(n)
    ensures MapRow(result) == Some(Emit("", n))
  {
    TrimByAllBlank(result[PlatformColumn], IsJavaBlank);
    MapRowReadsLikes(result, n, "", "");
    assert "" + IntToString(n) + "" == IntToString(n);
  }

  // ------------------------------------------------------------- reducer

  const LongModulus: int := 0x1_0000_0000_0000_0000

  /** Java `long` addition: the exact value brought back into range modulo 2^64. */
  function WrapLong(x: int): (r: Long)
    ensures (x - r) % LongModulus == 0
  {
    ((x - LongMin) % LongModulus) + LongMin
  }

  /** Wrapping is determined by the residue: an in-range value congruent to `x` is `WrapLong(x)`. */
  lemma WrapUnique(x: int, r: Long, q: int)
    requires x - r == q * LongModulus
    ensures WrapLong(x) == r
  {
    var y := x - LongMin;
    var d := y / LongModulus;
    assert y == d * LongModulus + y % LongModulus;
    assert (r - LongMin) - y % LongModulus == (d - q) * LongModulus;
    SmallMultiple(d - q);
  }

  /** The only multiple of 2^64 strictly between -2^64 and 2^64 is zero. */
  lemma SmallMultiple(d: int)
    requires -LongModulus < d * LongModulus < LongModulus
    ensures d == 0
  {
  }

  /** Adding to a wrapped sum wraps like adding to the exact sum: overflow in the middle does not matter. */
  lemma WrapAdd(a: int, b: int)
    ensures WrapLong(WrapLong(a) + b) == WrapLong(a + b)
  {
    var r := WrapLong(a + b);
    var q1 := (a - WrapLong(a)) / LongModulus;
    var q2 := (a + b - r) / LongModulus;
    assert a - WrapLong(a) == q1 * LongModulus;
    assert a + b - r == q2 * LongModulus;
    assert WrapLong(a) + b - r == (q2 - q1) * LongModulus;
    WrapUnique(WrapLong(a) + b, r, q2 - q1);
  }

  /** A value already in range is not changed by wrapping. */
  lemma WrapInRange(x: Long)
    ensures WrapLong(x) == x
  {
    WrapUnique(x, x, 0);
  }

  /** The exact sum of the values. */
  function SumOf(values: seq<Long>): int {
    if values == [] then 0 else SumOf(values[..|values| - 1]) + values[|values| - 1]
  }

  /**
    The reducer's put: the platform's row, the `cf:avg_likes` column and
    the average `sum / count`, kept as its two operands.
   */
  datatype AvgPut = AvgPut(row: string, column: Column, sum: Long, count: nat)

  /** The average the put carries, as an exact quotient. */
  function Average(p: AvgPut): real
    requires p.count > 0
  {
    p.sum as real / p.count as real
  }

  /**
    What one `reduce` call does: nothing, one put, or a failed task because
    HBase's `Put` constructor rejects the row key: an empty one with "Row
    length is 0", one over `MaxRowLength` with "Row length N is > 32767".
   */
  datatype Reduced = NoPut | Written(put: AvgPut) | RowKeyRefused

  /**
    `AvgLikesReducer.reduce`: a put exactly when the platform has values
    and a name HBase accepts as a row key; it goes to the platform's row and `cf:avg_likes`,
    its count is the number of values and its sum is their exact sum
    wrapped to a `long`. The mapper emits the empty platform for a blank
    `cf:Platform` cell, and that group's put is rejected, as is the put of
    a platform longer than HBase allows.
   */
  method Reduce(key: string, values: seq<Long>) returns (out: Reduced)
    ensures out.NoPut? <==> values == []
    ensures out.RowKeyRefused? <==> values != [] && !ValidRowKey(key)
    ensures out.Written? ==> out.put.row == key && out.put.column == AvgColumn
    ensures out.Written? ==> out.put.count == |values| && out.put.sum == WrapLong(SumOf(values))
  {
    var sum: Long := 0;
    var count: nat := 0;
    WrapInRange(0);
    for k := 0 to |values|
      invariant count == k
      invariant sum == WrapLong(SumOf(values[..k]))
    {
      assert values[..k + 1][..k] == values[..k];
      WrapAdd(SumOf(values[..k]), values[k]);
      sum := WrapLong(sum + values[k]);
      count := count + 1;
    }
    assert values[..|values|] == values;
    if count > 0 {
      if !ValidRowKey(key) {
        return RowKeyRefused;
      }
      return Written(AvgPut(key, AvgColumn, sum, count));
    }
    return NoPut;
  }

  /** When the exact sum fits in a `long`, the average is the true mean of the values. */
  lemma ReduceExactWithoutOverflow(key: string, values: seq<Long>, p: AvgPut)
    requires values != [] && LongMin <= SumOf(values) <= LongMax
    requires p == AvgPut(key, AvgColumn, WrapLong(SumOf(values)), |values|)
    ensures Average(p) == SumOf(values) as real / |values| as real
  {
    WrapInRange(SumOf(values));
  }
}

=== FILE: batching.dfy ===
/**
  What it means to cut a stream of records into write batches: every record
  is sent once, in order, in batches of a fixed size except for a shorter
  final one.
 */
module Batching {

  /** The batches laid end to end. */
  function Flatten<T>(batches: seq<seq<T>>): seq<T> {
    if batches == [] then [] else Flatten(batches[..|batches| - 1]) + batches[|batches| - 1]
  }

  lemma FlattenAppend<T>(batches: seq<seq<T>>, b: seq<T>)
    ensures Flatten(batches + [b]) == Flatten(batches) + b
  {
    assert (batches + [b])[..|batches|] == batches;
  }

  /**
    `batches` sends exactly `items`, in order, each batch non-empty and
    holding `size` records, except that the last may hold fewer.
   */
  ghost predicate IsChunking<T>(batches: seq<seq<T>>, items: seq<T>, size: nat) {
    && Flatten(batches) == items
    && (forall i :: 0 <= i < |batches| - 1 ==> |batches[i]| == size)
    && (forall i :: 0 <= i < |batches| ==> 0 < |batches[i]| <= size)
  }

  /** `q == ceil(n / d)`, stated without division. */
  predicate IsCeilDiv(q: nat, n: nat, d: nat) {
    n <= q * d && (q == 0 || (q - 1) * d < n)
  }

  lemma {:induction false} FlattenFullLength<T>(batches: seq<seq<T>>, size: nat)
    requires forall i :: 0 <= i < |batches| ==> |batches[i]| == size
    ensures |Flatten(batches)| == |batches| * size
  {
    if batches != [] {
      var init := batches[..|batches| - 1];
      FlattenFullLength(init, size);
      assert |Flatten(batches)| == |Flatten(init)| + size;
      assert |batches| * size == |init| * size + size;
    }
  }

  /** A chunking of `n` records into batches of `size` has exactly `ceil(n / size)` batches. */
  lemma ChunkCount<T>(batches: seq<seq<T>>, items: seq<T>, size: nat)
    requires size > 0 && IsChunking(batches, items, size)
    ensures IsCeilDiv(|batches|, |items|, size)
    ensures |batches| == 0 <==> |items| == 0
  {
    if batches != [] {
      var m := |batches|;
      var init, last := batches[..m - 1], batches[m - 1];
      assert |Flatten(init)| == (m - 1) * size by {
        assert forall i :: 0 <= i < |init| ==> |init[i]| == size;
        FlattenFullLength(init, size);
      }
      assert |items| == |Flatten(init)| + |last| by {
        assert batches == init + [last];
        FlattenAppend(init, last);
      }
      assert 0 < |last| <= size;
      assert m * size == (m - 1) * size + size;
    }
  }

  /**
    The loaders' batching loop: each record is appended to the open batch,
    the batch is sent once it holds `size` records, and a non-empty
    remainder is sent at the end.
   */
  method Chunk<T>(items: seq<T>, size: nat) returns (batches: seq<seq<T>>)
    requires size > 0
    ensures IsChunking(batches, items, size)
    ensures IsCeilDiv(|batches|, |items|, size)
  {
    batches := [];
    var current: seq<T> := [];
    var k := 0;
    while k < |items|
      invariant 0 <= k <= |items|
      invariant |current| < size
      invariant forall b :: 0 <= b < |batches| ==> |batches[b]| == size
      invariant Flatten(batches) + current == items[..k]
    {
      current := current + [items[k]];
      assert items[..k + 1] == items[..k] + [items[k]];
      if |current| >= size {
        FlattenAppend(batches, current);
        batches := batches + [current];
        current := [];
      }
      k := k + 1;
    }
    assert items[..k] == items;
    FinishChunking(batches, current, items, size);
    if current != [] {
      batches := batches + [current];
    }
  }

  /** Full batches followed by a shorter open batch, sent when it is not empty, chunk the records. */
  lemma FinishChunking<T>(full: seq<seq<T>>, open: seq<T>, items: seq<T>, size: nat)
    requires size > 0 && |open| < size
    requires forall b :: 0 <= b < |full| ==> |full[b]| == size
    requires Flatten(full) + open == items
    ensures var batches := if open == [] then full else full + [open];
            IsChunking(batches, items, size) && IsCeilDiv(|batches|, |items|, size)
  {
    var batches := if open == [] then full else full + [open];
    if open == [] {
      assert Flatten(full) == items;
    } else {
      FlattenAppend(full, open);
    }
    ChunkCount(batches, items, size);
  }

  /** Quotient and remainder are the unique `q` and `r` with `x == q * d + r` and `0 <= r < d`. */
  lemma ModUnique(x: nat, q: nat, r: nat, d: nat)
    requires 0 <= r < d && x == q * d + r
    ensures x / d == q && x % d == r
  {
    var q', r' := x / d, x % d;
    assert x == q' * d + r';
    if q' < q {
      MulGap(q, q', d);
      assert false;
    } else if q < q' {
      MulGap(q', q, d);
      assert false;
    }
  }

  lemma MulGap(big: nat, small: nat, d: nat)
    requires small < big
    ensures big * d >= small * d + d
  {
    var a := big - small;
    assert big * d == small * d + a * d;
    assert a * d == (a - 1) * d + d;
  }

  /** Counting one more record advances the remainder by one, wrapping at `size`. */
  lemma ModStep(n: nat, size: nat)
    requires size > 0
    ensures (n + 1) % size == if n % size + 1 == size then 0 else n % size + 1
  {
    var q, r := n / size, n % size;
    assert n == q * size + r;
    if r + 1 == size {
      assert n + 1 == (q + 1) * size + 0;
      ModUnique(n + 1, q + 1, 0, size);
    } else {
      ModUnique(n + 1, q, r + 1, size);
    }
  }

  /** The index of the first record `refused` holds for, or the number of records when there is none. */
  function FirstWhere<T>(items: seq<T>, refused: T -> bool): (n: nat)
    ensures n <= |items|
    ensures forall i :: 0 <= i < n ==> !refused(items[i])
    ensures n < |items| ==> refused(items[n])
  {
    if items == [] || refused(items[0]) then 0
    else
      var m := FirstWhere(items[1..], refused);
      assert forall i :: 1 <= i < m + 1 ==> items[i] == items[1..][i - 1];
      1 + m
  }

  /**
    The experiment's send loop: every record goes into the open batch, the
    batch is sent whenever the running record count is a multiple of
    `size`, and once more at the end when the count is not. The store
    refuses a batch holding a record `refused` holds for, which raises and
    ends the loop: the batches sent are then the full ones before the
    batch holding the first refused record.
   */
  method SendByCount<T>(items: seq<T>, size: nat, refused: T -> bool) returns (sent: seq<seq<T>>, failed: bool)
    requires size > 0
    ensures failed <==> FirstWhere(items, refused) < |items|
    ensures !failed ==> IsChunking(sent, items, size) && IsCeilDiv(|sent|, |items|, size)
    ensures failed ==> |sent| == FirstWhere(items, refused) / size
    ensures failed ==> forall b :: 0 <= b < |sent| ==> |sent[b]| == size
    ensures failed ==> Flatten(sent) == items[..|sent| * size]
  {
    var first := FirstWhere(items, refused);
    sent := [];
    var open: seq<T> := [];
    var rowCount := 0;
    var holdsRefused := false;
    while rowCount < |items|
      invariant 0 <= rowCount <= |items|
      invariant |open| == rowCount % size
      invariant forall b :: 0 <= b < |sent| ==> |sent[b]| == size
      invariant Flatten(sent) + open == items[..rowCount]
      invariant |sent| * size + |open| == rowCount
      invariant |sent| * size <= first
      invariant holdsRefused <==> first < rowCount
    {
      FirstWhereStep(items, refused, rowCount);
      open := open + [items[rowCount]];
      holdsRefused := holdsRefused || refused(items[rowCount]);
      assert items[..rowCount + 1] == items[..rowCount] + [items[rowCount]];
      ModStep(rowCount, size);
      rowCount := rowCount + 1;
      if rowCount % size == 0 {
        if holdsRefused {
          SentBeforeRefused(sent, open, items[..rowCount], first, size);
          assert items[..rowCount][..|sent| * size] == items[..|sent| * size];
          return sent, true;
        }
        SendFull(sent, open, items[..rowCount], size);
        sent := sent + [open];
        open := [];
      }
    }
    assert items[..rowCount] == items;
    if holdsRefused {
      SentBeforeRefused(sent, open, items, first, size);
      return sent, true;
    }
    FinishChunking(sent, open, items, size);
    if rowCount % size != 0 {
      sent := sent + [open];
    }
    failed := false;
  }

  /** One more record is past the first refused one exactly when it is refused or an earlier one was. */
  lemma FirstWhereStep<T>(items: seq<T>, refused: T -> bool, k: nat)
    requires k < |items|
    ensures FirstWhere(items, refused) < k + 1 <==> FirstWhere(items, refused) < k || refused(items[k])
  {
  }

  /** Sending a full open batch keeps the sent batches full and in record order. */
  lemma SendFull<T>(sent: seq<seq<T>>, open: seq<T>, items: seq<T>, size: nat)
    requires |open| == size
    requires |sent| * size + |open| == |items|
    requires Flatten(sent) + open == items
    ensures |sent + [open]| * size == |items|
    ensures Flatten(sent + [open]) == items
  {
    FlattenAppend(sent, open);
    assert (|sent| + 1) * size == |sent| * size + size;
  }

  /**
    When the open batch holds the first refused record, the full batches
    before it are the first `first / size` batches and carry the records
    before that batch.
   */
  lemma SentBeforeRefused<T>(sent: seq<seq<T>>, open: seq<T>, items: seq<T>, first: nat, size: nat)
    requires 0 < size && |open| <= size
    requires forall b :: 0 <= b < |sent| ==> |sent[b]| == size
    requires Flatten(sent) + open == items
    requires |sent| * size <= first < |items|
    ensures |sent| == first / size
    ensures Flatten(sent) == items[..|sent| * size]
  {
    FlattenFullLength(sent, size);
    assert |items| == |sent| * size + |open|;
    ModUnique(first, |sent|, first - |sent| * size, size);
  }

  /** Reference for the per-row step: the shapes of the rows, in row order, without those `keep` rejects. */
  function KeptShapes<A, B>(rows: seq<A>, shape: (A, nat) -> B, keep: B -> bool): seq<B> {
    if rows == [] then []
    else
      var b := shape(rows[|rows| - 1], |rows| - 1);
      KeptShapes(rows[..|rows| - 1], shape, keep) + (if keep(b) then [b] else [])
  }

  /** The reference keeps only shapes that pass, and no more of them than there are rows. */
  lemma {:induction false} KeptShapesPass<A, B>(rows: seq<A>, shape: (A, nat) -> B, keep: B -> bool)
    ensures |KeptShapes(rows, shape, keep)| <= |rows|
    ensures forall k :: 0 <= k < |KeptShapes(rows, shape, keep)| ==> keep(KeptShapes(rows, shape, keep)[k])
  {
    if rows != [] {
      KeptShapesPass(rows[..|rows| - 1], shape, keep);
    }
  }

  /** When every shape passes, the reference is every row's shape, in order. */
  lemma {:induction false} KeptShapesAll<A, B>(rows: seq<A>, shape: (A, nat) -> B, keep: B -> bool)
    requires forall i :: 0 <= i < |rows| ==> keep(shape(rows[i], i))
    ensures |KeptShapes(rows, shape, keep)| == |rows|
    ensures forall i :: 0 <= i < |rows| ==> KeptShapes(rows, shape, keep)[i] == shape(rows[i], i)
  {
    if rows != [] {
      var init := rows[..|rows| - 1];
      assert forall i :: 0 <= i < |init| ==> init[i] == rows[i];
      KeptShapesAll(init, shape, keep);
    }
  }

  /**
    The loaders' per-row step: every row is counted, shaped together with
    its zero-based index, and queued when `keep` holds of the result, so
    the queue is the passing shapes in row order.
   */
  method ShapeRows<A, B>(rows: seq<A>, shape: (A, nat) -> B, keep: B -> bool) returns (total: nat, kept: seq<B>)
    ensures total == |rows| && |kept| <= total
    ensures kept == KeptShapes(rows, shape, keep)
    ensures forall k :: 0 <= k < |kept| ==> keep(kept[k])
    ensures (forall i :: 0 <= i < |rows| ==> keep(shape(rows[i], i))) ==>
              |kept| == |rows| && forall i :: 0 <= i < |rows| ==> kept[i] == shape(rows[i], i)
  {
    total, kept := 0, [];
    while total < |rows|
      invariant total <= |rows|
      invariant kept == KeptShapes(rows[..total], shape, keep)
    {
      var b := shape(rows[total], total);
      assert rows[..total + 1][..total] == rows[..total];
      if keep(b) {
        kept := kept + [b];
      }
      total := total + 1;
    }
    assert rows[..total] == rows;
    KeptShapesPass(rows, shape, keep);
    if forall i :: 0 <= i < |rows| ==> keep(shape(rows[i], i)) {
      KeptShapesAll(rows, shape, keep);
    }
  }
}

=== FILE: columns.dfy ===
/**
  Qualified HBase column names (`family:qualifier`) and the naive
  one-family put shape shared by the insert scripts and the experiment:
  every CSV field except the row-key field becomes `cf:<field>`.
 */
module Columns {

  /** A CSV row as `csv.DictReader` yields it: header name to cell text. */
  type Row = map<string, string>

  /** An HBase column, named by its family and its qualifier. */
  datatype Column = Column(family: string, qualifier: string)

  /** The column's name as the client sends it: `family:qualifier`. */
  function Encode(c: Column): (name: string)
    ensures |name| == |c.family| + 1 + |c.qualifier|
    ensures name[..|c.family|] == c.family && name[|c.family|] == ':' && name[|c.family| + 1..] == c.qualifier
  {
    c.family + ":" + c.qualifier
  }

  /**
    Family names contain no colon, so the first colon of an encoded name
    separates family from qualifier: two columns with the same encoded name
    are the same column, even when qualifiers contain colons.
   */
  lemma EncodeInjective(c1: Column, c2: Column)
    requires ':' !in c1.family && ':' !in c2.family
    requires Encode(c1) == Encode(c2)
    ensures c1 == c2
  {
    var n := Encode(c1);
    assert |c1.family| == |c2.family| by {
      assert forall k :: 0 <= k < |c1.family| ==> n[k] == c1.family[k] && n[k] != ':';
      assert forall k :: 0 <= k < |c2.family| ==> n[k] == c2.family[k] && n[k] != ':';
    }
  }

  /** Every field of `row` other than `keyField`, each under `cf:<field>` with its text unchanged. */
  function CfColumns(row: Row, keyField: string): (cols: map<Column, string>)
    ensures forall k :: k in row && k != keyField ==> Column("cf", k) in cols && cols[Column("cf", k)] == row[k]
    ensures forall c :: c in cols ==> c.family == "cf" && c.qualifier in row && c.qualifier != keyField
    ensures Column("cf", keyField) !in cols
  {
    map k | k in row && k != keyField :: Column("cf", k) := row[k]
  }

  /** The names `cf:<k>` for `k` in `keys`. */
  ghost function CfNames(keys: set<string>): set<Column> {
    set k | k in keys :: Column("cf", k)
  }

  /** Distinct fields give distinct columns, so the number of names is kept. */
  lemma {:induction false} CfNamesCardinality(keys: set<string>)
    ensures |CfNames(keys)| == |keys|
    decreases |keys|
  {
    if keys != {} {
      var k :| k in keys;
      var rest := keys - {k};
      CfNamesCardinality(rest);
      assert CfNames(keys) == CfNames(rest) + {Column("cf", k)};
    }
  }

  /** One column per field other than the key field: no field is lost or merged. */
  lemma CfColumnsCount(row: Row, keyField: string)
    ensures |CfColumns(row, keyField)| == |row.Keys - {keyField}|
    ensures keyField in row ==> |CfColumns(row, keyField)| == |row| - 1
  {
    var cols := CfColumns(row, keyField);
    assert cols.Keys == CfNames(row.Keys - {keyField});
    CfNamesCardinality(row.Keys - {keyField});
  }

  /** The row read back from its `cf` columns, with the key field set to the row key. */
  function Restore(cols: map<Column, string>, keyField: string, key: string): Row {
    var fields := set c | c in cols && c.family == "cf" :: c.qualifier;
    (map q | q in fields :: cols[Column("cf", q)])[keyField := key]
  }

  /**
    The one-family put loses nothing: the row is its columns plus its key,
    so reading the columns back and setting the key field gives the row.
   */
  lemma CfColumnsRestore(row: Row, keyField: string)
    requires keyField in row
    ensures Restore(CfColumns(row, keyField), keyField, row[keyField]) == row
  {
    var cols := CfColumns(row, keyField);
    var back := Restore(cols, keyField, row[keyField]);
    assert back.Keys == row.Keys by {
      assert forall k :: k in row && k != keyField ==> Column("cf", k) in cols;
    }
    assert forall k :: k in back ==> back[k] == row[k];
  }

  /** HBase's longest row key, `Short.MAX_VALUE`. */
  const MaxRowLength: nat := 32767

  /**
    A row key HBase accepts: neither empty ("Row length is 0") nor longer
    than `MaxRowLength` ("Row length N is > 32767"). HBase measures the
    key's UTF-8 bytes, which for the ASCII text of this model is its
    length.
   */
  predicate ValidRowKey(key: string) {
    0 < |key| <= MaxRowLength
  }
}

=== FILE: experiment_aggregate.dfy ===
/**
  The experiment's hand-written HBase aggregation: a full scan grouped by
  `cf:Platform`, summing `cf:Likes` and counting rows per platform. A row
  without a platform counts under the empty platform, a row without likes
  (or with empty likes) adds zero, and likes text that `int()` rejects
  aborts the whole aggregation.
 */
module ExperimentAggregate {
  import opened Wrappers
  import opened Numbers
  import opened Columns

  /** One stored row as the scan returns it: its cells by column. */
  type Cells = map<Column, string>

  datatype Stats = Stats(totalLikes: int, count: nat)

  /** `data.get(b'cf:Platform', b'')`. */
  function PlatformOf(data: Cells): string {
    GetOr(data, Column("cf", "Platform"), "")
  }

  /** `int(data.get(b'cf:Likes', b'0') or 0)`: `None` where `int()` raises. */
  function LikesOf(data: Cells): (r: Option<int>)
    ensures Column("cf", "Likes") !in data ==> r == Some(0)
    ensures Column("cf", "Likes") in data && data[Column("cf", "Likes")] == "" ==> r == Some(0)
    ensures Column("cf", "Likes") in data && data[Column("cf", "Likes")] != "" ==> r == PyInt(data[Column("cf", "Likes")])
  {
    var text := GetOr(data, Column("cf", "Likes"), "0");
    PyIntRoundTrip(0);
    assert IntToString(0) == "0";
    if text == "" then Some(0) else PyInt(text)
  }

  // Reference definitions, one row at a time, for any grouping key and any
  // value reader.

  /** The group keys that occur among the rows. */
  function KeysIn<R>(rows: seq<R>, key: R -> string): set<string> {
    set i | 0 <= i < |rows| :: key(rows[i])
  }

  /** Every row's value can be read. */
  predicate AllRead<R>(rows: seq<R>, value: R -> Option<int>) {
    forall i :: 0 <= i < |rows| ==> value(rows[i]).Some?
  }

  /** How many rows fall in group `k`. */
  function CountOf<R>(rows: seq<R>, key: R -> string, k: string): (n: nat)
    ensures n <= |rows|
  {
    if rows == [] then 0
    else CountOf(rows[..|rows| - 1], key, k) + (if key(rows[|rows| - 1]) == k then 1 else 0)
  }

  /** A group has rows exactly when its key occurs. */
  lemma {:induction false} CountOfPositive<R>(rows: seq<R>, key: R -> string, k: string)
    ensures CountOf(rows, key, k) > 0 <==> k in KeysIn(rows, key)
  {
    if rows != [] {
      var init := rows[..|rows| - 1];
      StepKeys(init, key, rows[|rows| - 1]);
      assert init + [rows[|rows| - 1]] == rows;
      CountOfPositive(init, key, k);
    }
  }

  /** The values of the rows of group `k`, summed (an unreadable value counts as zero here). */
  function TotalOf<R>(rows: seq<R>, key: R -> string, value: R -> Option<int>, k: string): int {
    if rows == [] then 0
    else
      var last := rows[|rows| - 1];
      TotalOf(rows[..|rows| - 1], key, value, k) + (if key(last) == k then ValueOrZero(value(last)) else 0)
  }

  function ValueOrZero(o: Option<int>): int {
    if o.Some? then o.value else 0
  }

  /** A group no row falls in has nothing summed. */
  lemma {:induction false} EmptyGroup<R>(rows: seq<R>, key: R -> string, value: R -> Option<int>, k: string)
    requires k !in KeysIn(rows, key)
    ensures TotalOf(rows, key, value, k) == 0
  {
    if rows != [] {
      var init := rows[..|rows| - 1];
      StepKeys(init, key, rows[|rows| - 1]);
      assert init + [rows[|rows| - 1]] == rows;
      EmptyGroup(init, key, value, k);
    }
  }

  /** One more row adds its group key. */
  lemma StepKeys<R>(rows: seq<R>, key: R -> string, row: R)
    ensures KeysIn(rows + [row], key) == KeysIn(rows, key) + {key(row)}
  {
    var next := rows + [row];
    assert forall i :: 0 <= i < |rows| ==> next[i] == rows[i];
    assert next[|rows|] == row;
  }

  /** One more row adds one to its group's count and its value to its group's sum. */
  lemma StepStats<R>(rows: seq<R>, key: R -> string, value: R -> Option<int>, row: R, k: string)
    ensures CountOf(rows + [row], key, k) == CountOf(rows, key, k) + (if k == key(row) then 1 else 0)
    ensures TotalOf(rows + [row], key, value, k) == TotalOf(rows, key, value, k) + (if k == key(row) then ValueOrZero(value(row)) else 0)
  {
    assert (rows + [row])[..|rows|] == rows;
  }

  /** The row counts of the groups in `ks`, added up. */
  ghost function SumCounts<R>(rows: seq<R>, key: R -> string, ks: set<string>): nat {
    if ks == {} then 0
    else
      var k :| k in ks;
      CountOf(rows, key, k) + SumCounts(rows, key, ks - {k})
  }

  /** The sum can be taken apart at any group, not only at the one it picks. */
  lemma {:induction false} SumCountsRemove<R>(rows: seq<R>, key: R -> string, ks: set<string>, x: string)
    requires x in ks
    ensures SumCounts(rows, key, ks) == CountOf(rows, key, x) + SumCounts(rows, key, ks - {x})
    decreases |ks|
  {
    var k :| k in ks && SumCounts(rows, key, ks) == CountOf(rows, key, k) + SumCounts(rows, key, ks - {k});
    if k != x {
      SumCountsRemove(rows, key, ks - {k}, x);
      SumCountsRemove(rows, key, ks - {x}, k);
      assert ks - {k} - {x} == ks - {x} - {k};
    }
  }

  /** With no rows every group sum is zero. */
  lemma {:induction false} SumCountsNoRows<R>(key: R -> string, ks: set<string>)
    ensures SumCounts([], key, ks) == 0
    decreases |ks|
  {
    if ks != {} {
      var k :| k in ks;
      SumCountsRemove([], key, ks, k);
      SumCountsNoRows(key, ks - {k});
    }
  }

  /** One more row adds one to the sum exactly when its group is among `ks`. */
  lemma {:induction false} SumCountsStep<R>(rows: seq<R>, key: R -> string, row: R, ks: set<string>)
    ensures SumCounts(rows + [row], key, ks) == SumCounts(rows, key, ks) + (if key(row) in ks then 1 else 0)
    decreases |ks|
  {
    if ks != {} {
      var k :| k in ks;
      SumCountsRemove(rows, key, ks, k);
      SumCountsRemove(rows + [row], key, ks, k);
      StepStats(rows, key, x => None, row, k);
      SumCountsStep(rows, key, row, ks - {k});
    }
  }

  /** Every row falls in exactly one group, so the counts of all groups that occur add up to the number of rows. */
  lemma {:induction false} SumCountsCoversRows<R>(rows: seq<R>, key: R -> string, ks: set<string>)
    requires KeysIn(rows, key) <= ks
    ensures SumCounts(rows, key, ks) == |rows|
  {
    if rows == [] {
      SumCountsNoRows(key, ks);
    } else {
      var init, last := rows[..|rows| - 1], rows[|rows| - 1];
      assert init + [last] == rows;
      StepKeys(init, key, last);
      SumCountsCoversRows(init, key, ks);
      SumCountsStep(init, key, last, ks);
    }
  }

  /**
    Counting one row of `group` worth `amount`: a missing entry starts at
    zero, then the count goes up by one and the sum by `amount`.
   */
  function Bump(stats: map<string, Stats>, group: string, amount: int): (r: map<string, Stats>)
    ensures r.Keys == stats.Keys + {group}
  {
    var entry := if group !in stats then stats[group := Stats(0, 0)] else stats;
    entry[group := Stats(entry[group].totalLikes + amount, entry[group].count + 1)]
  }

  /** Counting one more row keeps group `k`'s counter equal to its reference sum and count. */
  lemma BumpStep<R>(rows: seq<R>, key: R -> string, value: R -> Option<int>, row: R, stats: map<string, Stats>, k: string)
    requires value(row).Some?
    requires stats.Keys == KeysIn(rows, key)
    requires k in stats ==> stats[k] == Stats(TotalOf(rows, key, value, k), CountOf(rows, key, k))
    requires k in Bump(stats, key(row), value(row).value)
    ensures Bump(stats, key(row), value(row).value)[k] == Stats(TotalOf(rows + [row], key, value, k), CountOf(rows + [row], key, k))
  {
    StepStats(rows, key, value, row, k);
    if k == key(row) && k !in stats {
      EmptyGroup(rows, key, value, k);
      CountOfPositive(rows, key, k);
    }
  }

  /**
    A dictionary-of-counters group-by: it fails exactly when some row's
    value cannot be read; otherwise it has one entry per group key that
    occurs, holding that group's row count and value sum.
   */
  method GroupSum<R>(rows: seq<R>, key: R -> string, value: R -> Option<int>) returns (r: Option<map<string, Stats>>)
    ensures r.None? <==> !AllRead(rows, value)
    ensures r.Some? ==> r.value.Keys == KeysIn(rows, key)
    ensures r.Some? ==> forall k :: k in r.value ==> r.value[k] == Stats(TotalOf(rows, key, value, k), CountOf(rows, key, k))
    ensures r.Some? ==> SumCounts(rows, key, r.value.Keys) == |rows|
  {
    var stats: map<string, Stats> := map[];
    var n := 0;
    while n < |rows|
      invariant 0 <= n <= |rows|
      invariant AllRead(rows[..n], value)
      invariant stats.Keys == KeysIn(rows[..n], key)
      invariant forall k :: k in stats ==> stats[k] == Stats(TotalOf(rows[..n], key, value, k), CountOf(rows[..n], key, k))
    {
      var row := rows[n];
      var group := key(row);
      var v := value(row);
      if v.None? {
        return None;
      }
      assert rows[..n + 1] == rows[..n] + [row];
      StepKeys(rows[..n], key, row);
      forall k | k in Bump(stats, group, v.value)
        ensures Bump(stats, group, v.value)[k] == Stats(TotalOf(rows[..n + 1], key, value, k), CountOf(rows[..n + 1], key, k))
      {
        BumpStep(rows[..n], key, value, row, stats, k);
      }
      stats := Bump(stats, group, v.value);
      n := n + 1;
    }
    assert rows[..n] == rows;
    SumCountsCoversRows(rows, key, stats.Keys);
    return Some(stats);
  }

  /**
    The scan loop of `benchmark_aggregation_operations`: it fails exactly
    when some row's likes cannot be read; otherwise it has one entry per
    platform that occurs, holding that platform's row count and likes sum.
   */
  method Aggregate(scan: seq<Cells>) returns (r: Option<map<string, Stats>>)
    ensures r.None? <==> exists i :: 0 <= i < |scan| && LikesOf(scan[i]).None?
    ensures r.Some? ==> r.value.Keys == KeysIn(scan, PlatformOf)
    ensures r.Some? ==> forall p :: p in r.value ==>
              r.value[p] == Stats(TotalOf(scan, PlatformOf, LikesOf, p), CountOf(scan, PlatformOf, p))
    ensures r.Some? ==> SumCounts(scan, PlatformOf, r.value.Keys) == |scan|
  {
    r := GroupSum(scan, PlatformOf, LikesOf);
  }
}

=== FILE: experiment_load.dfy ===
/**
  The benchmark experiment's two loads. Into HBase, every CSV row becomes
  one put keyed by its `Post ID` (or `post_<n>` for the n-th row when the
  field is missing) with every other field under `cf`, and puts are sent
  every thousand rows; a send holding a key HBase refuses fails the load.
  Into SQLite, the cleaned table is written as is, except that when the
  `post_id` column repeats a value, every id gets its row number appended
  so that the key becomes unique.
 */
module ExperimentLoad {
  import opened Wrappers
  import opened Text
  import opened Numbers
  import opened Columns
  import opened Batching

  // -------------------------------------------------------------- HBase

  const KeyField: string := "Post ID"

  /** Rows per explicit `batch.send()`. */
  const SendEvery: nat := 1000

  datatype Put = Put(key: string, columns: map<Column, string>)

  /** The key of the `rowCount`-th row (counted from 1) when it has no `Post ID`. */
  function FallbackKey(rowCount: nat): (key: string)
    ensures |key| > 5 && key[..5] == "post_" && key[5..] == NatToString(rowCount)
  {
    "post_" + NatToString(rowCount)
  }

  /**
    The put for the `rowCount`-th row: keyed by the row's `Post ID` when
    present, else by its count; every other field under `cf:<field>` with
    its text unchanged, the key field itself left out.
   */
  function ExperimentPut(row: Row, rowCount: nat): (p: Put)
    ensures p.key == GetOr(row, KeyField, FallbackKey(rowCount))
    ensures forall k :: k in row && k != KeyField ==> Column("cf", k) in p.columns && p.columns[Column("cf", k)] == row[k]
    ensures forall c :: c in p.columns ==> c.family == "cf" && c.qualifier in row && c.qualifier != KeyField
  {
    Put(GetOr(row, KeyField, FallbackKey(rowCount)), CfColumns(row, KeyField))
  }

  /** Rows without a `Post ID` get pairwise distinct keys. */
  lemma FallbackKeyInjective(n1: nat, n2: nat)
    requires FallbackKey(n1) == FallbackKey(n2)
    ensures n1 == n2
  {
    assert FallbackKey(n1)[5..] == FallbackKey(n2)[5..];
    NatToStringInjective(n1, n2);
  }

  /** A row with a `Post ID` can be read back from its put. */
  lemma ExperimentPutRestores(row: Row, rowCount: nat)
    requires KeyField in row
    ensures var p := ExperimentPut(row, rowCount); Restore(p.columns, KeyField, p.key) == row
  {
    CfColumnsRestore(row, KeyField);
  }

  /** The put of the row at zero-based index `i`: the source counts rows from 1. */
  function IndexedPut(row: Row, i: nat): Put {
    ExperimentPut(row, i + 1)
  }

  /** HBase refuses a put whose row key is empty or too long. */
  predicate RefusedKey(p: Put) {
    !ValidRowKey(p.key)
  }

  /**
    `load_data_to_hbase`: the file's first row is read to learn the header,
    so an empty file fails before anything is sent. Otherwise every row is
    counted and turned into its put, even one without columns, and the
    puts go out in sends of `SendEvery` rows with a shorter last one. A
    send holding a put with a refused key raises, and the load fails with
    the sends before it delivered.
   */
  method LoadToHBase(rows: seq<Row>) returns (ok: bool, totalRecords: nat, puts: seq<Put>, sends: seq<seq<Put>>)
    ensures ok <==> rows != [] && forall i :: 0 <= i < |rows| ==> ValidRowKey(ExperimentPut(rows[i], i + 1).key)
    ensures |puts| == |rows| && forall i :: 0 <= i < |rows| ==> puts[i] == ExperimentPut(rows[i], i + 1)
    ensures ok ==> totalRecords == |rows|
    ensures !ok ==> totalRecords == 0
    ensures ok ==> IsChunking(sends, puts, SendEvery) && IsCeilDiv(|sends|, |puts|, SendEvery)
    ensures rows == [] ==> sends == []
    ensures rows != [] && !ok ==> |sends| == FirstWhere(puts, RefusedKey) / SendEvery
    ensures !ok ==> forall b :: 0 <= b < |sends| ==> |sends[b]| == SendEvery
    ensures !ok ==> Flatten(sends) == puts[..|sends| * SendEvery]
  {
    if rows == [] {
      return false, 0, [], [];
    }
    var total, failed;
    total, puts := ShapeRows(rows, IndexedPut, p => true);
    sends, failed := SendByCount(puts, SendEvery, RefusedKey);
    ok := !failed;
    totalRecords := if ok then total else 0;
  }

  // ------------------------------------------------------------- SQLite

  /** How many ids repeat an earlier one: `duplicated().sum()`. */
  function DuplicateCount(ids: seq<string>): (n: nat)
    ensures n <= |ids|
    ensures n == 0 <==> forall i, j :: 0 <= i < j < |ids| ==> ids[i] != ids[j]
  {
    if ids == [] then 0
    else
      var init := ids[..|ids| - 1];
      var last := ids[|ids| - 1];
      var rest := DuplicateCount(init);
      assert forall i :: 0 <= i < |init| ==> init[i] == ids[i];
      rest + (if last in init then 1 else 0)
  }

  /** The de-duplicated id of the row at index `i`: `<id>_<i>`. */
  function Suffixed(id: string, i: nat): (r: string)
    ensures BeforeLast(r, '_') == id && AfterLast(r, '_') == NatToString(i)
  {
    var n := NatToString(i);
    assert forall k :: 0 <= k < |n| ==> n[k] != '_' by {
      assert forall k :: 0 <= k < |n| ==> IsDigit(n[k]);
    }
    SplitLastJoin(id, '_', n);
    id + "_" + n
  }

  /**
    The duplicate handling of `load_data_to_sqlite`: ids are kept when none
    repeats; otherwise every id, repeated or not, gets its row index
    appended.
   */
  function Dedupe(ids: seq<string>): (r: seq<string>)
    ensures |r| == |ids|
    ensures DuplicateCount(ids) == 0 ==> r == ids
    ensures DuplicateCount(ids) > 0 ==> forall i :: 0 <= i < |ids| ==>
              BeforeLast(r[i], '_') == ids[i] && AfterLast(r[i], '_') == NatToString(i)
  {
    if DuplicateCount(ids) == 0 then ids
    else seq(|ids|, i requires 0 <= i < |ids| => Suffixed(ids[i], i))
  }

  /** After de-duplication the ids are pairwise distinct, so they can serve as a primary key. */
  lemma DedupeDistinct(ids: seq<string>, i: nat, j: nat)
    requires i < j < |ids|
    ensures Dedupe(ids)[i] != Dedupe(ids)[j]
  {
    var r := Dedupe(ids);
    if DuplicateCount(ids) > 0 && r[i] == r[j] {
      assert AfterLast(r[i], '_') == AfterLast(r[j], '_');
      NatToStringInjective(i, j);
    }
  }

  /** De-duplicating once more changes nothing. */
  lemma DedupeIdempotent(ids: seq<string>)
    ensures Dedupe(Dedupe(ids)) == Dedupe(ids)
  {
    var r := Dedupe(ids);
    forall i, j | 0 <= i < j < |r| ensures r[i] != r[j] {
      DedupeDistinct(ids, i, j);
    }
  }
}

=== FILE: experiment_schema.dfy ===
/**
  How the benchmark experiment derives its relational schema from the CSV
  header: column names are cleaned (lower case, spaces and hyphens to
  underscores, parentheses dropped); each column's SQL type is guessed
  from keywords in its name; the first post-id-like column becomes the
  primary key. When that schema is rejected, a fallback schema with a
  synthetic integer key and no id rule is used instead.
 */
module ExperimentSchema {
  import opened Text

  // ------------------------------------------------------- column names

  /** A name as the cleaning leaves it: no upper-case letter, space, hyphen or parenthesis. */
  predicate IsCleanName(s: string) {
    forall x :: x in s ==> x != ' ' && x != '-' && x != '(' && x != ')' && !('A' <= x <= 'Z')
  }

  /** What cleaning makes of a character other than a parenthesis: spaces and hyphens become `_`, letters lower case. */
  function CleanChar(x: char): char {
    if x == ' ' || x == '-' then '_' else LowerChar(x)
  }

  /**
    `col.lower().replace(' ', '_').replace('-', '_').replace('(', '').replace(')', '')`.
    A name without parentheses keeps its length and is cleaned character
    by character; `CleanNameAppend` and `CleanNameChar` say what happens to
    every other name.
   */
  function CleanName(col: string): (r: string)
    ensures IsCleanName(r)
    ensures |r| <= |col|
    ensures '(' !in col && ')' !in col ==> |r| == |col| && forall i :: 0 <= i < |col| ==> r[i] == CleanChar(col[i])
  {
    var lowered := Lower(col);
    var spaced := ReplaceChar(ReplaceChar(lowered, ' ', '_'), '-', '_');
    assert forall x :: x in spaced ==> x != ' ' && x != '-' && !('A' <= x <= 'Z');
    var r := DeleteChar(DeleteChar(spaced, '('), ')');
    assert '(' !in col && ')' !in col ==> r == spaced && forall k :: 0 <= k < |col| ==> spaced[k] == CleanChar(col[k]) by {
      if '(' !in col && ')' !in col {
        assert forall k :: 0 <= k < |spaced| ==> spaced[k] == CleanChar(col[k]) && spaced[k] != '(' && spaced[k] != ')';
        DeleteAbsent(spaced, '(');
        DeleteAbsent(spaced, ')');
      }
    }
    r
  }

  /** Cleaning works piece by piece: the cleaning of a concatenation is the concatenation of the cleanings. */
  lemma CleanNameAppend(a: string, b: string)
    ensures CleanName(a + b) == CleanName(a) + CleanName(b)
  {
    var sa := ReplaceChar(ReplaceChar(Lower(a), ' ', '_'), '-', '_');
    var sb := ReplaceChar(ReplaceChar(Lower(b), ' ', '_'), '-', '_');
    var sab := ReplaceChar(ReplaceChar(Lower(a + b), ' ', '_'), '-', '_');
    assert sab == sa + sb;
    DeleteCharAppend(sa, sb, '(');
    DeleteCharAppend(DeleteChar(sa, '('), DeleteChar(sb, '('), ')');
  }

  /** A parenthesis is dropped; any other character becomes its `CleanChar`. */
  lemma CleanNameChar(x: char)
    ensures CleanName([x]) == if x == '(' || x == ')' then [] else [CleanChar(x)]
  {
    var spaced := ReplaceChar(ReplaceChar(Lower([x]), ' ', '_'), '-', '_');
    assert spaced == [CleanChar(x)];
    DeleteCharSingle(CleanChar(x), '(');
    DeleteCharSingle(CleanChar(x), ')');
    assert DeleteChar([], ')') == [];
  }

  /** Lower-casing text with no upper-case letter changes nothing. */
  lemma LowerFixed(s: string)
    requires forall x :: x in s ==> !('A' <= x <= 'Z')
    ensures Lower(s) == s
  {
    assert forall k :: 0 <= k < |s| ==> Lower(s)[k] == s[k] by {
      forall k | 0 <= k < |s| ensures Lower(s)[k] == s[k] {
        assert s[k] in s;
      }
    }
  }

  /** Replacing a character that does not occur changes nothing. */
  lemma ReplaceAbsent(s: string, a: char, b: char)
    requires a !in s
    ensures ReplaceChar(s, a, b) == s
  {
    assert forall k :: 0 <= k < |s| ==> s[k] != a by {
      forall k | 0 <= k < |s| ensures s[k] != a {
        assert s[k] in s;
      }
    }
  }

  /** Cleaning is idempotent: a cleaned name cleans to itself. */
  lemma CleanNameIdempotent(col: string)
    ensures CleanName(CleanName(col)) == CleanName(col)
  {
    var r := CleanName(col);
    LowerFixed(r);
    ReplaceAbsent(r, ' ', '_');
    ReplaceAbsent(r, '-', '_');
    DeleteAbsent(r, '(');
    DeleteAbsent(r, ')');
  }

  /** A clean name is its own cleaning, so cleaning fixes exactly the clean names. */
  lemma CleanNameFixesCleanNames(s: string)
    ensures CleanName(s) == s <==> IsCleanName(s)
  {
    if IsCleanName(s) {
      LowerFixed(s);
      ReplaceAbsent(s, ' ', '_');
      ReplaceAbsent(s, '-', '_');
      DeleteAbsent(s, '(');
      DeleteAbsent(s, ')');
    }
  }

  // ------------------------------------------------------------- types

  datatype SqlType = TextType | IntegerType | RealType

  /** One column definition of the CREATE TABLE statement. */
  datatype ColumnDef = ColumnDef(name: string, sqlType: SqlType, primaryKey: bool)

  const CountKeywords: seq<string> := ["like", "share", "comment", "view", "reach", "impression", "follower"]
  const RatioKeywords: seq<string> := ["rate", "score", "percentage", "ratio"]
  const AgeKeywords: seq<string> := ["age"]

  /** `any(keyword in col.lower() for keyword in keywords)`. */
  predicate HasKeyword(col: string, keywords: seq<string>) {
    exists k :: 0 <= k < |keywords| && Contains(Lower(col), keywords[k])
  }

  /** The keyword rules, in the source's order: counts, then ratios, then age, else text. */
  function TypeByKeywords(col: string, counts: seq<string>, ratios: seq<string>, ages: seq<string>): (t: SqlType)
    ensures t == IntegerType <==> HasKeyword(col, counts) || (!HasKeyword(col, ratios) && HasKeyword(col, ages))
    ensures t == RealType <==> !HasKeyword(col, counts) && HasKeyword(col, ratios)
    ensures t == TextType <==> !HasKeyword(col, counts) && !HasKeyword(col, ratios) && !HasKeyword(col, ages)
  {
    if HasKeyword(col, counts) then IntegerType
    else if HasKeyword(col, ratios) then RealType
    else if HasKeyword(col, ages) then IntegerType
    else TextType
  }

  /** The type a column gets from the keywords in its name. */
  function KeywordType(col: string): SqlType {
    TypeByKeywords(col, CountKeywords, RatioKeywords, AgeKeywords)
  }

  /** `col.upper() == 'POST ID' or 'post' in col.lower() and 'id' in col.lower()`. */
  predicate IsPostIdColumn(col: string) {
    Upper(col) == "POST ID" || (Contains(Lower(col), "post") && Contains(Lower(col), "id"))
  }

  /** `'id' in col.lower()`. */
  predicate MentionsId(col: string) {
    Contains(Lower(col), "id")
  }

  /** The definition of one column, given whether a primary key was already chosen. */
  function InferColumn(col: string, keySet: bool): ColumnDef {
    if IsPostIdColumn(col) && !keySet then ColumnDef(CleanName(col), TextType, true)
    else if MentionsId(col) then ColumnDef(CleanName(col), TextType, false)
    else ColumnDef(CleanName(col), KeywordType(col), false)
  }

  /** No element before index `i` satisfies `p`. */
  predicate NoneBefore<T>(xs: seq<T>, p: T -> bool, i: nat)
    requires i <= |xs|
  {
    forall j :: 0 <= j < i ==> !p(xs[j])
  }

  /**
    A left-to-right pass with one flag: element `i` is mapped by `f`
    together with whether the flag is up, and the flag goes up at the
    first element satisfying `p` (or is up from the start when `seen`).
   */
  function FlagScan<T, D>(xs: seq<T>, p: T -> bool, f: (T, bool) -> D, seen: bool): (ds: seq<D>)
    ensures |ds| == |xs|
    decreases |xs|
  {
    if xs == [] then [] else [f(xs[0], seen)] + FlagScan(xs[1..], p, f, seen || p(xs[0]))
  }

  /** Element `i` of the pass sees the flag up exactly when `seen` or some earlier element satisfies `p`. */
  lemma {:induction false} FlagScanAt<T, D>(xs: seq<T>, p: T -> bool, f: (T, bool) -> D, seen: bool, i: nat)
    requires i < |xs|
    ensures FlagScan(xs, p, f, seen)[i] == f(xs[i], seen || !NoneBefore(xs, p, i))
    decreases i
  {
    if i > 0 {
      FlagScanAt(xs[1..], p, f, seen || p(xs[0]), i - 1);
      assert NoneBefore(xs, p, i) <==> !p(xs[0]) && NoneBefore(xs[1..], p, i - 1) by {
        assert forall j :: 1 <= j < i ==> xs[1..][j - 1] == xs[j];
      }
    }
  }

  /** No column before index `i` is post-id-like. */
  predicate NoPostIdBefore(columns: seq<string>, i: nat)
    requires i <= |columns|
  {
    NoneBefore(columns, IsPostIdColumn, i)
  }

  /**
    The schema loop of `setup_sqlite_table`, continuing with `keySet`
    telling whether a primary key was already chosen: one definition per
    column, in order, each made as if the key had been set exactly when
    an earlier column (or the caller) set it.
   */
  function InferFrom(columns: seq<string>, keySet: bool): (defs: seq<ColumnDef>) {
    FlagScan(columns, IsPostIdColumn, InferColumn, keySet)
  }

  /**
    One column of the inferred schema: it is the key exactly when it is the
    first post-id-like column and no key was chosen before; key and id
    columns are text, every other column takes its keyword type.
   */
  lemma InferFromColumn(columns: seq<string>, keySet: bool, i: nat)
    requires i < |columns|
    ensures InferFrom(columns, keySet)[i].name == CleanName(columns[i])
    ensures InferFrom(columns, keySet)[i].primaryKey <==> !keySet && IsPostIdColumn(columns[i]) && NoPostIdBefore(columns, i)
    ensures InferFrom(columns, keySet)[i].sqlType ==
              if InferFrom(columns, keySet)[i].primaryKey || MentionsId(columns[i]) then TextType else KeywordType(columns[i])
  {
    FlagScanAt(columns, IsPostIdColumn, InferColumn, keySet, i);
  }

  /** The schema `setup_sqlite_table` builds from the header. */
  function InferSchema(columns: seq<string>): (defs: seq<ColumnDef>)
    ensures |defs| == |columns|
  {
    InferFrom(columns, false)
  }

  /** The inferred schema has at most one primary key. */
  lemma InferSchemaOneKey(columns: seq<string>, i: nat, j: nat)
    requires i < j < |columns|
    ensures !(InferSchema(columns)[i].primaryKey && InferSchema(columns)[j].primaryKey)
  {
    InferFromColumn(columns, false, i);
    InferFromColumn(columns, false, j);
    if InferSchema(columns)[j].primaryKey {
      assert NoPostIdBefore(columns, j);
      assert !IsPostIdColumn(columns[i]);
    }
  }

  /** A header with a post-id-like column gets exactly one primary key, the first such column. */
  lemma InferSchemaKeyExists(columns: seq<string>, i: nat)
    requires i < |columns| && IsPostIdColumn(columns[i]) && NoPostIdBefore(columns, i)
    ensures InferSchema(columns)[i].primaryKey
    ensures forall j :: 0 <= j < |columns| && j != i ==> !InferSchema(columns)[j].primaryKey
  {
    InferFromColumn(columns, false, i);
    forall j | 0 <= j < |columns| && j != i ensures !InferSchema(columns)[j].primaryKey {
      if j < i {
        InferFromColumn(columns, false, j);
        assert !IsPostIdColumn(columns[j]);
      } else {
        InferSchemaOneKey(columns, i, j);
      }
    }
  }

  // ----------------------------------------------------------- fallback

  /**
    The fallback schema of `load_data_to_sqlite`: a synthetic
    auto-increment integer key `id` first, then every column under its
    cleaned name with its keyword type; no id rule, no other key.
   */
  function FallbackSchema(columns: seq<string>): (defs: seq<ColumnDef>)
    ensures |defs| == |columns| + 1
    ensures defs[0] == SyntheticKey
    ensures defs[1..] == FallbackColumns(columns)
  {
    [SyntheticKey] + FallbackColumns(columns)
  }

  /** `id INTEGER PRIMARY KEY AUTOINCREMENT`. */
  const SyntheticKey: ColumnDef := ColumnDef("id", IntegerType, true)

  /** The CSV columns of the fallback schema: each under its cleaned name with its keyword type, none a key. */
  function FallbackColumns(columns: seq<string>): (defs: seq<ColumnDef>)
    ensures |defs| == |columns|
    ensures forall i :: 0 <= i < |columns| ==> defs[i] == ColumnDef(CleanName(columns[i]), KeywordType(columns[i]), false)
  {
    seq(|columns|, i requires 0 <= i < |columns| => ColumnDef(CleanName(columns[i]), KeywordType(columns[i]), false))
  }

  /**
    The fallback agrees with the inferred schema on every column's name,
    and on its type wherever the name does not mention `id`; its only key
    is the synthetic one.
   */
  lemma FallbackAgreesWithInferred(columns: seq<string>, i: nat)
    requires i < |columns|
    ensures FallbackSchema(columns)[i + 1].name == InferSchema(columns)[i].name
    ensures !MentionsId(columns[i]) && !InferSchema(columns)[i].primaryKey ==>
              FallbackSchema(columns)[i + 1].sqlType == InferSchema(columns)[i].sqlType
    ensures !FallbackSchema(columns)[i + 1].primaryKey
  {
    assert FallbackSchema(columns)[i + 1] == FallbackSchema(columns)[1..][i];
    InferFromColumn(columns, false, i);
  }

  /** `Post ID` opens the schema as the text primary key `post_id`. */
  lemma PostIdExample()
    ensures InferColumn("Post ID", false) == ColumnDef("post_id", TextType, true)
  {
    assert Upper("Post ID") == "POST ID";
    var spaced := ReplaceChar(ReplaceChar(Lower("Post ID"), ' ', '_'), '-', '_');
    assert spaced == "post_id";
    DeleteAbsent(spaced, '(');
    DeleteAbsent(spaced, ')');
  }
}

=== FILE: hbase_loader.dfy ===
/**
  The record shaping of the optimised HBase loader: the sequential row key
  `platform_postid8_counter08`, the twelve text columns of family `cf`
  (omitted when blank or a sentinel, truncated per field), the six
  always-present numeric columns of family `metrics` produced by a
  conversion that never fails, and the per-row step of the sequential load
  that turns CSV rows into batches of puts.
 */
module HBaseLoader {
  import opened Wrappers
  import opened Text
  import opened Numbers
  import opened Columns
  import opened Batching

  // ---------------------------------------------------------------- row key

  /** The platform part of the key: the `Platform` field cut to 10 characters, `unknown` only when the field is absent. */
  function PlatformPart(row: Row): string {
    Take(GetOr(row, "Platform", "unknown"), 10)
  }

  /** The post part of the key: the `Post ID` field (empty when absent) cut to 8 characters. */
  function PostIdPart(row: Row): string {
    Take(GetOr(row, "Post ID", ""), 8)
  }

  /** The counter part of the key: `{counter:08d}`. */
  function CounterPart(counter: nat): string {
    ZeroPadded(counter, 8)
  }

  /**
    `generate_simple_row_key`. The key splits back at its last underscore
    into the platform and post parts and the zero-padded counter, which
    reads back as `counter`.
   */
  function RowKey(row: Row, counter: nat): (key: string)
    ensures |key| > 0
    ensures AfterLast(key, '_') == CounterPart(counter)
    ensures DigitsValue(CounterPart(counter)) == counter
    ensures BeforeLast(key, '_') == PlatformPart(row) + "_" + PostIdPart(row)
    ensures |PlatformPart(row)| <= 10 && |PostIdPart(row)| <= 8 && |CounterPart(counter)| >= 8
  {
    var head := PlatformPart(row) + "_" + PostIdPart(row);
    var tail := CounterPart(counter);
    assert '_' !in tail by {
      assert forall k :: 0 <= k < |tail| ==> IsDigit(tail[k]);
    }
    SplitLastJoin(head, '_', tail);
    ZeroPaddedRoundTrip(counter, 8);
    head + "_" + tail
  }

  /** Distinct counters give distinct keys, whatever the rows hold. */
  lemma RowKeyInjective(row1: Row, c1: nat, row2: Row, c2: nat)
    requires c1 != c2
    ensures RowKey(row1, c1) != RowKey(row2, c2)
  {
  }

  /** The worked example: platform `Instagram`, post `abc12345678`, counter 3. */
  lemma RowKeyExample()
    ensures RowKey(map["Platform" := "Instagram", "Post ID" := "abc12345678", "Likes" := "150"], 3)
            == "Instagram_abc12345_00000003"
  {
    var row := map["Platform" := "Instagram", "Post ID" := "abc12345678", "Likes" := "150"];
    assert PlatformPart(row) == "Instagram" by {
      assert GetOr(row, "Platform", "unknown") == "Instagram";
    }
    assert PostIdPart(row) == "abc12345" by {
      assert GetOr(row, "Post ID", "") == "abc12345678";
    }
    assert CounterPart(3) == "00000003" by {
      assert NatToString(3) == "3";
    }
    assert "Instagram" + "_" + "abc12345" + "_" + "00000003" == "Instagram_abc12345_00000003";
  }

  /** `unknown` stands in for an absent platform; a present but empty platform stays empty. */
  lemma PlatformDefault(row: Row)
    ensures "Platform" !in row ==> PlatformPart(row) == "unknown"
    ensures "Platform" in row && row["Platform"] == "" ==> PlatformPart(row) == ""
  {
  }

  // ----------------------------------------------------------- text columns

  /** The `cf` family mapping: CSV field to column qualifier, in the source's order. */
  const BasicMapping: seq<(string, string)> := [
    ("Platform", "platform"),
    ("Post ID", "post_id"),
    ("Post Type", "post_type"),
    ("Post Content", "post_content"),
    ("Post Timestamp", "post_timestamp"),
    ("Audience Age", "audience_age"),
    ("Audience Gender", "audience_gender"),
    ("Audience Location", "audience_location"),
    ("Audience Interests", "audience_interests"),
    ("Campaign ID", "campaign_id"),
    ("Sentiment", "sentiment"),
    ("Influencer ID", "influencer_id")
  ]

  /** The character budget of a text field. */
  function TextLimit(csvField: string): nat {
    if csvField == "Post Content" then 500
    else if csvField == "Audience Interests" then 200
    else if csvField == "Audience Location" then 100
    else 50
  }

  /** Stripped text the loader treats as "no value": empty, or `nan` / `none` in any letter case. */
  predicate IsTextSentinel(v: string) {
    v == "" || Lower(v) == "nan" || Lower(v) == "none"
  }

  /** What a cell is stored as: text, or the decimal rendering of a float whose digits the model leaves open. */
  datatype Cell = Str(text: string) | FloatText(literal: string)

  /** The value stored for one text field, or `None` when the column is omitted. */
  function TextValue(row: Row, csvField: string): (r: Option<string>)
    ensures r.Some? <==> !IsTextSentinel(Strip(GetOr(row, csvField, "")))
    ensures r.Some? ==> 0 < |r.value| <= TextLimit(csvField)
    ensures r.Some? ==> |r.value| <= |Strip(GetOr(row, csvField, ""))|
    ensures r.Some? ==> r.value == Strip(GetOr(row, csvField, ""))[..|r.value|]
    ensures r.Some? ==> !IsPyWhitespace(r.value[0])
    ensures r.Some? && |Strip(GetOr(row, csvField, ""))| <= TextLimit(csvField) ==> r.value == Strip(GetOr(row, csvField, ""))
    ensures r.Some? && |Strip(GetOr(row, csvField, ""))| > TextLimit(csvField) ==> |r.value| == TextLimit(csvField)
  {
    var v := Strip(GetOr(row, csvField, ""));
    if IsTextSentinel(v) then None else Some(Take(v, TextLimit(csvField)))
  }

  /** Qualifiers of a mapping table are pairwise distinct. */
  predicate DistinctTargets(mapping: seq<(string, string)>) {
    forall i, j :: 0 <= i < j < |mapping| ==> mapping[i].1 != mapping[j].1
  }

  /**
    The loop shared by both families: for each `(csv_field, qualifier)` of
    `mapping`, column `family:qualifier` is written exactly when `cellOf`
    yields a value for the field, and holds that value; nothing else is
    written.
   */
  function MappedColumns<V>(family: string, mapping: seq<(string, string)>, cellOf: string -> Option<V>): (cols: map<Column, V>)
    requires DistinctTargets(mapping)
    ensures forall i :: 0 <= i < |mapping| ==>
              (Column(family, mapping[i].1) in cols <==> cellOf(mapping[i].0).Some?)
    ensures forall i :: 0 <= i < |mapping| && Column(family, mapping[i].1) in cols ==>
              cols[Column(family, mapping[i].1)] == cellOf(mapping[i].0).value
    ensures forall c :: c in cols ==> exists i :: 0 <= i < |mapping| && c == Column(family, mapping[i].1)
  {
    if mapping == [] then map[]
    else
      var init := mapping[..|mapping| - 1];
      var field, target := mapping[|mapping| - 1].0, mapping[|mapping| - 1].1;
      assert forall i :: 0 <= i < |init| ==> init[i] == mapping[i];
      var cols := MappedColumns(family, init, cellOf);
      match cellOf(field)
      case Some(v) => cols[Column(family, target) := v]
      case None => cols
  }

  /** Every value `MappedColumns` writes comes from `cellOf`, so it is non-blank when every value `cellOf` yields is. */
  lemma {:induction false} MappedColumnsNonBlank(family: string, mapping: seq<(string, string)>, cellOf: string -> Option<Cell>)
    requires DistinctTargets(mapping)
    requires forall f :: cellOf(f).Some? ==> IsNonBlank(cellOf(f).value)
    ensures forall c :: c in MappedColumns(family, mapping, cellOf) ==> IsNonBlank(MappedColumns(family, mapping, cellOf)[c])
  {
    if mapping != [] {
      var init := mapping[..|mapping| - 1];
      assert forall i :: 0 <= i < |init| ==> init[i] == mapping[i];
      MappedColumnsNonBlank(family, init, cellOf);
    }
  }

  /** The text-cell reader of one row, as the fold takes it. */
  function TextCellOf(row: Row): string -> Option<Cell> {
    f => TextCell(row, f)
  }

  /** A text field's cell, when the field is kept. */
  function TextCell(row: Row, csvField: string): Option<Cell> {
    match TextValue(row, csvField)
    case Some(v) => Some(Str(v))
    case None => None
  }

  // -------------------------------------------------------- metric columns

  /** The `metrics` family mapping: CSV field to column qualifier, in the source's order. */
  const MetricsMapping: seq<(string, string)> := [
    ("Likes", "likes"),
    ("Comments", "comments"),
    ("Shares", "shares"),
    ("Impressions", "impressions"),
    ("Reach", "reach"),
    ("Engagement Rate", "engagement_rate")
  ]

  /**
    The outcome of `_safe_convert`: a whole number, or the float branch
    taken on `literal` (which rounds or truncates a float the model does
    not compute).
   */
  datatype Converted = Whole(n: int) | FloatPath(literal: string)

  /** Input `_safe_convert` maps straight to 0: empty, or stripping to one of `''`, `nan`, `None`, `null` exactly. */
  predicate IsNumericSentinel(value: string) {
    var t := Strip(value);
    value == "" || t == "" || t == "nan" || t == "None" || t == "null"
  }

  const Int32Limit: int := 2147483647

  /**
    `_safe_convert`, which never fails: sentinels and text `float()`
    rejects become 0, a whole number inside the 32-bit bound is returned as
    itself, and any other number takes the float branch.
   */
  function SafeConvert(value: string): (r: Converted)
    ensures IsNumericSentinel(value) ==> r == Whole(0)
    ensures !IsPyFloatLiteral(Strip(value)) ==> r == Whole(0)
    ensures !IsNumericSentinel(value) && PyInt(value).Some? && -Int32Limit < PyInt(value).value < Int32Limit
            ==> r == Whole(PyInt(value).value)
    ensures r.FloatPath? ==> !IsNumericSentinel(value) && r.literal == Strip(value) && IsPyFloatLiteral(r.literal)
    ensures !IsNumericSentinel(value) && IsPyFloatLiteral(Strip(value))
            && !(PyInt(value).Some? && -Int32Limit < PyInt(value).value < Int32Limit)
            ==> r == FloatPath(Strip(value))
  {
    if IsNumericSentinel(value) then Whole(0)
    else
      var t := Strip(value);
      assert IsPyIntLiteral(t) ==> IsPyFloatLiteral(t) by {
        if IsPyIntLiteral(t) {
          IntLiteralIsFloatLiteral(t);
        }
      }
      if !IsPyFloatLiteral(t) then
        Whole(0)
      else
        match ParseIntLiteral(t)
        case Some(n) => if -Int32Limit < n < Int32Limit then Whole(n) else FloatPath(t)
        case None => FloatPath(t)
  }

  /** A whole number written the way Python writes it converts back to itself. */
  lemma SafeConvertWholeRoundTrip(n: int)
    requires -Int32Limit < n < Int32Limit
    ensures SafeConvert(IntToString(n)) == Whole(n)
  {
    PyIntRoundTrip(n);
    IntTextNotSentinel(n);
  }

  /** `str(n)` of a whole number is never one of the sentinels `_safe_convert` maps to 0. */
  lemma IntTextNotSentinel(n: int)
    ensures !IsNumericSentinel(IntToString(n))
  {
    var s := IntToString(n);
    assert Strip(s) == s && s[0] != 'n' && s[0] != 'N' by {
      IntToStringShape(n);
    }
    NotSentinelByFirst(s);
  }

  /** Text that strips to itself and starts with neither `n` nor `N` is no sentinel. */
  lemma NotSentinelByFirst(s: string)
    requires |s| > 0 && Strip(s) == s && s[0] != 'n' && s[0] != 'N'
    ensures !IsNumericSentinel(s)
  {
    assert s != "nan" && s != "None" && s != "null" by {
      assert "nan"[0] == 'n' && "None"[0] == 'N' && "null"[0] == 'n';
    }
  }

  /** The metric-cell reader of one row, as the fold takes it. */
  function MetricCellOf(row: Row): string -> Option<Cell> {
    f => MetricValue(row, f)
  }

  /** `str(value)` of a conversion result. */
  function MetricCell(c: Converted): Cell {
    match c
    case Whole(n) => Str(IntToString(n))
    case FloatPath(literal) => FloatText(literal)
  }

  /** A metric field's cell: always present, the conversion of the field's text (`'0'` when absent). */
  function MetricValue(row: Row, csvField: string): Option<Cell> {
    Some(MetricCell(SafeConvert(GetOr(row, csvField, "0"))))
  }

  // ------------------------------------------------------------ the record

  /**
    The byte-encoding filter: a value is kept when its text is non-empty
    after stripping. A float's rendering always has digits, so it is kept.
   */
  predicate IsNonBlank(c: Cell) {
    match c
    case Str(t) => |Strip(t)| > 0
    case FloatText(_) => true
  }

  function EncodeNonBlank(data: map<Column, Cell>): (r: map<Column, Cell>)
    ensures r.Keys <= data.Keys
    ensures forall k :: k in r ==> r[k] == data[k]
    ensures forall k :: k in r <==> k in data && IsNonBlank(data[k])
  {
    map k | k in data && IsNonBlank(data[k]) :: data[k]
  }

  /** No two qualifiers of a family share both their length and their first letter. */
  lemma MappingsDistinct()
    ensures DistinctTargets(BasicMapping) && DistinctTargets(MetricsMapping)
  {
    forall i, j | 0 <= i < j < |BasicMapping| ensures BasicMapping[i].1 != BasicMapping[j].1 {
      assert |BasicMapping[i].1| != |BasicMapping[j].1| || BasicMapping[i].1[0] != BasicMapping[j].1[0];
    }
    forall i, j | 0 <= i < j < |MetricsMapping| ensures MetricsMapping[i].1 != MetricsMapping[j].1 {
      assert |MetricsMapping[i].1| != |MetricsMapping[j].1| || MetricsMapping[i].1[0] != MetricsMapping[j].1[0];
    }
  }

  /** The `cf` half of the record: each kept text field of `mapping` under its qualifier, every value non-blank. */
  function TextColumns(row: Row, mapping: seq<(string, string)>): (cols: map<Column, Cell>)
    requires DistinctTargets(mapping)
    ensures forall i :: 0 <= i < |mapping| ==>
              (Column("cf", mapping[i].1) in cols <==> TextValue(row, mapping[i].0).Some?)
    ensures forall i :: 0 <= i < |mapping| && Column("cf", mapping[i].1) in cols ==>
              cols[Column("cf", mapping[i].1)] == Str(TextValue(row, mapping[i].0).value)
    ensures forall c :: c in cols ==> exists i :: 0 <= i < |mapping| && c == Column("cf", mapping[i].1)
    ensures forall c :: c in cols ==> c.family == "cf" && IsNonBlank(cols[c])
  {
    var cellOf := TextCellOf(row);
    var cols := MappedColumns("cf", mapping, cellOf);
    assert forall c :: c in cols ==> IsNonBlank(cols[c]) by {
      forall f | cellOf(f).Some? ensures IsNonBlank(cellOf(f).value) {
        assert cellOf(f) == TextCell(row, f);
        TrimByKeepsLeadingMark(TextValue(row, f).value, IsPyWhitespace);
      }
      MappedColumnsNonBlank("cf", mapping, cellOf);
    }
    assert forall i :: 0 <= i < |mapping| ==> cellOf(mapping[i].0) == TextCell(row, mapping[i].0);
    cols
  }

  /** The `metrics` half of the record: every metric field of `mapping`, converted, under its qualifier. */
  function MetricColumns(row: Row, mapping: seq<(string, string)>): (cols: map<Column, Cell>)
    requires DistinctTargets(mapping)
    ensures forall i :: 0 <= i < |mapping| ==>
              Column("metrics", mapping[i].1) in cols
              && cols[Column("metrics", mapping[i].1)] == MetricCell(SafeConvert(GetOr(row, mapping[i].0, "0")))
    ensures forall c :: c in cols ==> exists i :: 0 <= i < |mapping| && c == Column("metrics", mapping[i].1)
    ensures forall c :: c in cols ==> c.family == "metrics" && IsNonBlank(cols[c])
  {
    var cellOf := MetricCellOf(row);
    assert forall f :: cellOf(f) == MetricValue(row, f);
    forall f ensures IsNonBlank(cellOf(f).value) {
      MetricCellNonBlank(SafeConvert(GetOr(row, f, "0")));
    }
    MappedColumnsNonBlank("metrics", mapping, cellOf);
    MappedColumns("metrics", mapping, cellOf)
  }

  /** The text of a whole-number cell never strips to nothing. */
  lemma MetricCellNonBlank(c: Converted)
    ensures IsNonBlank(MetricCell(c))
  {
    if c.Whole? {
      var s := IntToString(c.n);
      assert IsDigit(s[0]) || s[0] == '-';
      TrimByKeepsLeadingMark(s, IsPyWhitespace);
    }
  }

  /** The byte-encoding filter drops nothing from a map whose every value is non-blank. */
  lemma EncodeNonBlankKeepsAll(data: map<Column, Cell>)
    requires forall c :: c in data ==> IsNonBlank(data[c])
    ensures EncodeNonBlank(data) == data
  {
  }

  /**
    The record built from a text mapping and a metric mapping: both halves
    side by side, passed through the byte-encoding filter (an empty record
    stays empty).
   */
  function Record(row: Row, textMapping: seq<(string, string)>, metricMapping: seq<(string, string)>): (data: map<Column, Cell>)
    requires DistinctTargets(textMapping) && DistinctTargets(metricMapping)
    ensures forall c :: c in data ==> IsNonBlank(data[c])
  {
    Assemble(TextColumns(row, textMapping), MetricColumns(row, metricMapping))
  }

  /** The two halves side by side, through the byte-encoding filter. */
  function Assemble(text: map<Column, Cell>, metrics: map<Column, Cell>): (data: map<Column, Cell>)
    ensures forall c :: c in data ==> IsNonBlank(data[c])
  {
    var merged := text + metrics;
    if merged == map[] then map[]
    else EncodeNonBlank(merged)
  }

  /** The filter drops nothing and the two families do not overlap, so the record is exactly the two halves. */
  lemma RecordSplits(row: Row, textMapping: seq<(string, string)>, metricMapping: seq<(string, string)>)
    requires DistinctTargets(textMapping) && DistinctTargets(metricMapping)
    ensures Record(row, textMapping, metricMapping) == TextColumns(row, textMapping) + MetricColumns(row, metricMapping)
    ensures TextColumns(row, textMapping).Keys !! MetricColumns(row, metricMapping).Keys
  {
    var text, metrics := TextColumns(row, textMapping), MetricColumns(row, metricMapping);
    var merged := text + metrics;
    forall c | c in merged ensures IsNonBlank(merged[c]) {
      if c in metrics {
        assert merged[c] == metrics[c];
      } else {
        assert merged[c] == text[c];
      }
    }
    EncodeNonBlankKeepsAll(merged);
    assert Record(row, textMapping, metricMapping) == Assemble(text, metrics);
  }

  /** Text field `i` of the mapping has a `cf` column exactly when its value is kept, holding that value. */
  lemma RecordText(row: Row, textMapping: seq<(string, string)>, metricMapping: seq<(string, string)>, i: nat)
    requires DistinctTargets(textMapping) && DistinctTargets(metricMapping) && i < |textMapping|
    ensures var data := Record(row, textMapping, metricMapping);
            (Column("cf", textMapping[i].1) in data <==> TextValue(row, textMapping[i].0).Some?)
            && (Column("cf", textMapping[i].1) in data ==> data[Column("cf", textMapping[i].1)] == Str(TextValue(row, textMapping[i].0).value))
  {
    RecordSplits(row, textMapping, metricMapping);
    assert Column("cf", textMapping[i].1) !in MetricColumns(row, metricMapping);
  }

  /** Metric field `i` of the mapping always has a `metrics` column, holding the text of its conversion. */
  lemma RecordMetric(row: Row, textMapping: seq<(string, string)>, metricMapping: seq<(string, string)>, i: nat)
    requires DistinctTargets(textMapping) && DistinctTargets(metricMapping) && i < |metricMapping|
    ensures var data := Record(row, textMapping, metricMapping);
            Column("metrics", metricMapping[i].1) in data
            && data[Column("metrics", metricMapping[i].1)] == MetricCell(SafeConvert(GetOr(row, metricMapping[i].0, "0")))
  {
    RecordSplits(row, textMapping, metricMapping);
  }

  /** Only the mappings' qualifiers are written. */
  lemma RecordOnlyMapped(row: Row, textMapping: seq<(string, string)>, metricMapping: seq<(string, string)>, c: Column)
    requires DistinctTargets(textMapping) && DistinctTargets(metricMapping)
    requires c in Record(row, textMapping, metricMapping)
    ensures (exists i :: 0 <= i < |textMapping| && c == Column("cf", textMapping[i].1))
            || (exists i :: 0 <= i < |metricMapping| && c == Column("metrics", metricMapping[i].1))
  {
    RecordSplits(row, textMapping, metricMapping);
  }

  /**
    `prepare_simple_data`. The record is never empty, because the
    conversion always yields a value and the filter drops nothing.
   */
  function PrepareSimpleData(row: Row): (data: map<Column, Cell>)
    ensures data != map[]
    ensures forall c :: c in data ==> IsNonBlank(data[c])
  {
    MappingsDistinct();
    RecordMetric(row, BasicMapping, MetricsMapping, 0);
    Record(row, BasicMapping, MetricsMapping)
  }

  /** Text field `i` has a `cf` column exactly when its value is kept, holding that value. */
  lemma PrepareSimpleDataText(row: Row, i: nat)
    requires i < |BasicMapping|
    ensures Column("cf", BasicMapping[i].1) in PrepareSimpleData(row) <==> TextValue(row, BasicMapping[i].0).Some?
    ensures Column("cf", BasicMapping[i].1) in PrepareSimpleData(row) ==>
              PrepareSimpleData(row)[Column("cf", BasicMapping[i].1)] == Str(TextValue(row, BasicMapping[i].0).value)
  {
    MappingsDistinct();
    RecordText(row, BasicMapping, MetricsMapping, i);
  }

  /** Metric field `i` always has a `metrics` column, holding the text of its conversion (`'0'` when absent). */
  lemma PrepareSimpleDataMetric(row: Row, i: nat)
    requires i < |MetricsMapping|
    ensures Column("metrics", MetricsMapping[i].1) in PrepareSimpleData(row)
    ensures PrepareSimpleData(row)[Column("metrics", MetricsMapping[i].1)] == MetricCell(SafeConvert(GetOr(row, MetricsMapping[i].0, "0")))
  {
    MappingsDistinct();
    RecordMetric(row, BasicMapping, MetricsMapping, i);
  }

  /** No column outside the two mapping tables is written. */
  lemma PrepareSimpleDataOnlyMapped(row: Row, c: Column)
    requires c in PrepareSimpleData(row)
    ensures (exists i :: 0 <= i < |BasicMapping| && c == Column("cf", BasicMapping[i].1))
            || (exists i :: 0 <= i < |MetricsMapping| && c == Column("metrics", MetricsMapping[i].1))
  {
    MappingsDistinct();
    RecordOnlyMapped(row, BasicMapping, MetricsMapping, c);
  }

  /** Every stored text respects its field's budget: content 500, interests 200, location 100, the rest 50. */
  lemma StoredTextBounded(row: Row, i: nat)
    requires i < |BasicMapping| && Column("cf", BasicMapping[i].1) in PrepareSimpleData(row)
    ensures var c := PrepareSimpleData(row)[Column("cf", BasicMapping[i].1)];
            c.Str? && 0 < |c.text| <= TextLimit(BasicMapping[i].0) <= 500
    ensures BasicMapping[i].0 == "Post Content" ==> TextLimit(BasicMapping[i].0) == 500
    ensures BasicMapping[i].0 == "Audience Interests" ==> TextLimit(BasicMapping[i].0) == 200
    ensures BasicMapping[i].0 == "Audience Location" ==> TextLimit(BasicMapping[i].0) == 100
    ensures BasicMapping[i].0 !in {"Post Content", "Audience Interests", "Audience Location"} ==> TextLimit(BasicMapping[i].0) == 50
  {
  }

  /** Two rows hold the same thing (or nothing) under field `f`. */
  predicate AgreeOn(row1: Row, row2: Row, f: string) {
    (f in row1 <==> f in row2) && (f in row1 ==> row1[f] == row2[f])
  }

  /** `MappedColumns` reads `cellOf` only at the mapping's fields. */
  lemma {:induction false} MappedColumnsLocal<V>(family: string, mapping: seq<(string, string)>, cellOf1: string -> Option<V>, cellOf2: string -> Option<V>)
    requires DistinctTargets(mapping)
    requires forall i :: 0 <= i < |mapping| ==> cellOf1(mapping[i].0) == cellOf2(mapping[i].0)
    ensures MappedColumns(family, mapping, cellOf1) == MappedColumns(family, mapping, cellOf2)
  {
    if mapping != [] {
      var init := mapping[..|mapping| - 1];
      assert forall i :: 0 <= i < |init| ==> init[i] == mapping[i];
      MappedColumnsLocal(family, init, cellOf1, cellOf2);
    }
  }

  /** The text half reads a row only at the mapping's fields. */
  lemma TextColumnsLocal(row1: Row, row2: Row, mapping: seq<(string, string)>)
    requires DistinctTargets(mapping)
    requires forall i :: 0 <= i < |mapping| ==> AgreeOn(row1, row2, mapping[i].0)
    ensures TextColumns(row1, mapping) == TextColumns(row2, mapping)
  {
    var t1, t2 := TextCellOf(row1), TextCellOf(row2);
    forall i | 0 <= i < |mapping| ensures t1(mapping[i].0) == t2(mapping[i].0) {
      var f := mapping[i].0;
      assert AgreeOn(row1, row2, f);
      assert GetOr(row1, f, "") == GetOr(row2, f, "");
      assert t1(f) == TextCell(row1, f) && t2(f) == TextCell(row2, f);
    }
    MappedColumnsLocal("cf", mapping, t1, t2);
  }

  /** The metric half reads a row only at the mapping's fields. */
  lemma MetricColumnsLocal(row1: Row, row2: Row, mapping: seq<(string, string)>)
    requires DistinctTargets(mapping)
    requires forall i :: 0 <= i < |mapping| ==> AgreeOn(row1, row2, mapping[i].0)
    ensures MetricColumns(row1, mapping) == MetricColumns(row2, mapping)
  {
    var m1, m2 := MetricCellOf(row1), MetricCellOf(row2);
    forall i | 0 <= i < |mapping| ensures m1(mapping[i].0) == m2(mapping[i].0) {
      var f := mapping[i].0;
      assert AgreeOn(row1, row2, f);
      assert GetOr(row1, f, "0") == GetOr(row2, f, "0");
      assert m1(f) == MetricValue(row1, f) && m2(f) == MetricValue(row2, f);
    }
    MappedColumnsLocal("metrics", mapping, m1, m2);
  }

  /** The record reads a row only at the mappings' fields. */
  lemma RecordLocal(row1: Row, row2: Row, textMapping: seq<(string, string)>, metricMapping: seq<(string, string)>)
    requires DistinctTargets(textMapping) && DistinctTargets(metricMapping)
    requires forall i :: 0 <= i < |textMapping| ==> AgreeOn(row1, row2, textMapping[i].0)
    requires forall i :: 0 <= i < |metricMapping| ==> AgreeOn(row1, row2, metricMapping[i].0)
    ensures Record(row1, textMapping, metricMapping) == Record(row2, textMapping, metricMapping)
  {
    assert TextColumns(row1, textMapping) == TextColumns(row2, textMapping) by {
      TextColumnsLocal(row1, row2, textMapping);
    }
    assert MetricColumns(row1, metricMapping) == MetricColumns(row2, metricMapping) by {
      MetricColumnsLocal(row1, row2, metricMapping);
    }
  }

  /** Fields outside the two mapping tables are ignored: rows that agree on the 18 mapped fields give the same record. */
  lemma PrepareSimpleDataIgnoresOtherFields(row1: Row, row2: Row)
    requires forall i :: 0 <= i < |BasicMapping| ==> AgreeOn(row1, row2, BasicMapping[i].0)
    requires forall i :: 0 <= i < |MetricsMapping| ==> AgreeOn(row1, row2, MetricsMapping[i].0)
    ensures PrepareSimpleData(row1) == PrepareSimpleData(row2)
  {
    MappingsDistinct();
    RecordLocal(row1, row2, BasicMapping, MetricsMapping);
  }

  // --------------------------------------------------- the sequential load

  /** One shaped record: its row key and its columns. */
  datatype Put = Put(key: string, columns: map<Column, Cell>)

  const LoaderBatchSize: nat := 2000

  /** `if data:` — a put is queued only when its record is non-empty. */
  predicate HasColumns(put: Put) {
    put.columns != map[]
  }

  /** Row `i` of the file as the loader shapes it. */
  function ShapedPut(row: Row, i: nat): Put {
    Put(RowKey(row, i), PrepareSimpleData(row))
  }

  /**
    `load_data_sequential` without the I/O: row `i` becomes the put keyed
    by `RowKey(row, i)` when its record is non-empty, which it always is,
    so no row is dropped; the puts go out in batches of 2000 and a final
    shorter one, and no two puts share a key.
   */
  method LoadSequential(rows: seq<Row>) returns (totalRecords: nat, puts: seq<Put>, batches: seq<seq<Put>>)
    ensures totalRecords == |rows| == |puts|
    ensures forall i :: 0 <= i < |rows| ==> puts[i] == ShapedPut(rows[i], i)
    ensures forall i, j :: 0 <= i < j < |puts| ==> puts[i].key != puts[j].key
    ensures IsChunking(batches, puts, LoaderBatchSize)
    ensures IsCeilDiv(|batches|, |rows|, LoaderBatchSize)
  {
    ShapedPutsKept(rows);
    totalRecords, puts := ShapeRows(rows, ShapedPut, HasColumns);
    ShapedKeysDistinct(rows, puts);
    batches := Chunk(puts, LoaderBatchSize);
  }

  /** Every row's put has columns, so the loader queues every row. */
  lemma ShapedPutsKept(rows: seq<Row>)
    ensures forall i :: 0 <= i < |rows| ==> HasColumns(ShapedPut(rows[i], i))
  {
    forall i | 0 <= i < |rows| ensures HasColumns(ShapedPut(rows[i], i)) {
      assert PrepareSimpleData(rows[i]) != map[];
    }
  }

  /** The puts of a file's rows, one per row in order, have pairwise distinct keys. */
  lemma ShapedKeysDistinct(rows: seq<Row>, puts: seq<Put>)
    requires |puts| == |rows| && forall i :: 0 <= i < |rows| ==> puts[i] == ShapedPut(rows[i], i)
    ensures forall i, j :: 0 <= i < j < |puts| ==> puts[i].key != puts[j].key
  {
    forall i, j | 0 <= i < j < |puts| ensures puts[i].key != puts[j].key {
      RowKeyInjective(rows[i], i, rows[j], j);
    }
  }
}

=== FILE: insert.dfy ===
/**
  The bulk insert scripts: every CSV row is written to HBase as one put,
  keyed by its key field, with every other field under `cf`. The first
  script loads one file keyed by `Post ID`; the second loops over a list
  of (file, table, key field) settings and loads each file the same way.
  A row without the key field raises `KeyError` and stops the script,
  after the puts of the rows before it. A row whose key is empty or longer
  than HBase allows stops it the same way: HBase refuses the put, and the
  scripts do not catch the error.
 */
module Insert {
  import opened Wrappers
  import opened Columns
  import opened Batching

  /** A stored table: each row key's cells. */
  type Table = map<string, map<Column, string>>

  /** Every stored row holds at least one cell, as HBase stores no row without one. */
  predicate WellFormed(table: Table) {
    forall key :: key in table ==> table[key] != map[]
  }

  /**
    One accepted `table.put(key, cells)`: the cells are written into the
    key's row, replacing cells of the same column and keeping the others;
    a put with no cells stores nothing. No other row changes. HBase
    accepts a put only for a valid row key.
   */
  function PutRow(table: Table, key: string, cells: map<Column, string>): (t: Table)
    requires WellFormed(table) && ValidRowKey(key)
    ensures WellFormed(t)
    ensures t.Keys == if cells == map[] then table.Keys else table.Keys + {key}
    ensures key in t ==> forall c :: c in cells ==> c in t[key] && t[key][c] == cells[c]
    ensures key in t ==> forall c :: c in t[key] && c !in cells ==> key in table && c in table[key] && t[key][c] == table[key][c]
    ensures forall k :: k in table && k != key ==> t[k] == table[k]
  {
    if cells == map[] then table
    else table[key := GetOr(table, key, map[]) + cells]
  }

  /** Why the insert loop ended: it ran out of rows, or a row raised. */
  datatype Stop = Finished | KeyError | RowKeyRefused

  /** How the insert loop ended: the table as left behind, and why. */
  datatype Outcome = Outcome(table: Table, stop: Stop)

  /** Row `row` carries some field besides the key field, so its put has cells. */
  predicate HasOtherField(row: Row, keyField: string) {
    exists k :: k in row && k != keyField
  }

  /**
    The insert loop: each row in order is put under `row[keyField]`; the
    first row without the key field raises `KeyError`, and the first row
    whose key is empty or too long is refused by HBase; either ends the
    loop.
   */
  function InsertRows(table: Table, rows: seq<Row>, keyField: string): (o: Outcome)
    requires WellFormed(table)
    ensures WellFormed(o.table)
    decreases |rows|
  {
    if rows == [] then Outcome(table, Finished)
    else if keyField !in rows[0] then Outcome(table, KeyError)
    else if !ValidRowKey(rows[0][keyField]) then Outcome(table, RowKeyRefused)
    else InsertRows(PutRow(table, rows[0][keyField], CfColumns(rows[0], keyField)), rows[1..], keyField)
  }

  /** A row the loop can put: it has the key field, and HBase accepts the key. */
  predicate UsableKey(row: Row, keyField: string) {
    keyField in row && ValidRowKey(row[keyField])
  }

  /** Every row can be put. */
  predicate AllUsable(rows: seq<Row>, keyField: string) {
    forall i :: 0 <= i < |rows| ==> UsableKey(rows[i], keyField)
  }

  /** The index of the first row the loop cannot put, or the number of rows when there is none. */
  function FirstUnusable(rows: seq<Row>, keyField: string): (n: nat)
    ensures n <= |rows|
    ensures forall i :: 0 <= i < n ==> UsableKey(rows[i], keyField)
    ensures n < |rows| ==> !UsableKey(rows[n], keyField)
  {
    FirstWhere(rows, row => !UsableKey(row, keyField))
  }

  /** Why a load of `rows` ends, read off its first row that cannot be put. */
  function StopOf(rows: seq<Row>, keyField: string): (stop: Stop)
    ensures stop == Finished <==> AllUsable(rows, keyField)
  {
    var n := FirstUnusable(rows, keyField);
    if n == |rows| then Finished
    else if keyField !in rows[n] then KeyError
    else RowKeyRefused
  }

  /**
    The load ends as its first unusable row dictates: `KeyError` when that
    row lacks the key field, `RowKeyRefused` when HBase refuses its key, and
    normally when there is no such row. What it leaves behind is the
    complete load of the rows before that one.
   */
  lemma {:induction false} InsertRowsStops(table: Table, rows: seq<Row>, keyField: string)
    requires WellFormed(table)
    ensures InsertRows(table, rows, keyField).stop == StopOf(rows, keyField)
    ensures InsertRows(table, rows, keyField).table == InsertRows(table, rows[..FirstUnusable(rows, keyField)], keyField).table
    decreases |rows|
  {
    var n := FirstUnusable(rows, keyField);
    if rows != [] && UsableKey(rows[0], keyField) {
      var next := PutRow(table, rows[0][keyField], CfColumns(rows[0], keyField));
      var m := FirstUnusable(rows[1..], keyField);
      InsertRowsStops(next, rows[1..], keyField);
      assert n == 1 + m;
      assert n < |rows| ==> rows[n] == rows[1..][m];
      assert rows[..n][1..] == rows[1..][..m];
    }
  }

  /** The row keys a complete load stores: those of the rows with a field besides the key. */
  function StoredKeys(rows: seq<Row>, keyField: string): set<string>
    requires forall i :: 0 <= i < |rows| ==> keyField in rows[i]
  {
    set i | 0 <= i < |rows| && HasOtherField(rows[i], keyField) :: rows[i][keyField]
  }

  /** A put has cells exactly when the row has a field besides the key. */
  lemma CfColumnsEmpty(row: Row, keyField: string)
    ensures CfColumns(row, keyField) == map[] <==> !HasOtherField(row, keyField)
  {
    if HasOtherField(row, keyField) {
      var k :| k in row && k != keyField;
      assert Column("cf", k) in CfColumns(row, keyField);
    }
  }

  /**
    A complete load adds exactly the keys of the rows that have a field
    besides the key; rows sharing a key collapse into one stored row.
   */
  lemma {:induction false} InsertRowsKeys(table: Table, rows: seq<Row>, keyField: string)
    requires WellFormed(table)
    requires AllUsable(rows, keyField)
    ensures InsertRows(table, rows, keyField).table.Keys == table.Keys + StoredKeys(rows, keyField)
    decreases |rows|
  {
    if rows != [] {
      var row := rows[0];
      var next := PutRow(table, row[keyField], CfColumns(row, keyField));
      CfColumnsEmpty(row, keyField);
      InsertRowsKeys(next, rows[1..], keyField);
      StoredKeysCons(rows, keyField);
    }
  }

  /** The stored keys of a non-empty list: the first row's key if it has cells, and the rest's. */
  lemma StoredKeysCons(rows: seq<Row>, keyField: string)
    requires |rows| > 0 && forall i :: 0 <= i < |rows| ==> keyField in rows[i]
    ensures StoredKeys(rows, keyField) ==
              (if HasOtherField(rows[0], keyField) then {rows[0][keyField]} else {}) + StoredKeys(rows[1..], keyField)
  {
    var tail := StoredKeys(rows[1..], keyField);
    var head: set<string> := if HasOtherField(rows[0], keyField) then {rows[0][keyField]} else {};
    forall x | x in StoredKeys(rows, keyField) ensures x in head + tail {
      var i :| 0 <= i < |rows| && HasOtherField(rows[i], keyField) && rows[i][keyField] == x;
      if i > 0 {
        assert rows[1..][i - 1] == rows[i];
      }
    }
    forall x | x in tail ensures x in StoredKeys(rows, keyField) {
      var i :| 0 <= i < |rows| - 1 && HasOtherField(rows[1..][i], keyField) && rows[1..][i][keyField] == x;
      assert rows[i + 1] == rows[1..][i];
    }
  }

  /** Rows whose key no later row uses are left alone by the rest of the load, however it ends. */
  lemma {:induction false} InsertRowsKeepsOthers(table: Table, rows: seq<Row>, keyField: string, key: string)
    requires WellFormed(table)
    requires key in table
    requires forall i :: 0 <= i < |rows| && keyField in rows[i] ==> rows[i][keyField] != key
    ensures key in InsertRows(table, rows, keyField).table
    ensures InsertRows(table, rows, keyField).table[key] == table[key]
    decreases |rows|
  {
    if rows != [] && UsableKey(rows[0], keyField) {
      var next := PutRow(table, rows[0][keyField], CfColumns(rows[0], keyField));
      assert forall i :: 1 <= i < |rows| ==> rows[1..][i - 1] == rows[i];
      InsertRowsKeepsOthers(next, rows[1..], keyField, key);
    }
  }

  /**
    The last row with a given key wins: once the load has put row `i`,
    each of its fields besides the key is stored under `cf:<field>` of its
    key's row with its text unchanged, unless a later row uses that key.
   */
  lemma {:induction false} InsertRowsLastWriterWins(table: Table, rows: seq<Row>, keyField: string, i: nat, field: string)
    requires WellFormed(table)
    requires i < |rows| && UsableKey(rows[i], keyField) && forall j :: 0 <= j < i ==> UsableKey(rows[j], keyField)
    requires forall j :: i < j < |rows| && keyField in rows[j] ==> rows[j][keyField] != rows[i][keyField]
    requires field in rows[i] && field != keyField
    ensures rows[i][keyField] in InsertRows(table, rows, keyField).table
    ensures Column("cf", field) in InsertRows(table, rows, keyField).table[rows[i][keyField]]
    ensures InsertRows(table, rows, keyField).table[rows[i][keyField]][Column("cf", field)] == rows[i][field]
    decreases |rows|
  {
    var row, rest := rows[0], rows[1..];
    var key := rows[i][keyField];
    var next := PutRow(table, row[keyField], CfColumns(row, keyField));
    assert forall j :: 0 <= j < |rest| ==> rest[j] == rows[j + 1];
    if i == 0 {
      assert key in next && Column("cf", field) in next[key] && next[key][Column("cf", field)] == row[field] by {
        assert Column("cf", field) in CfColumns(row, keyField);
      }
      InsertRowsKeepsOthers(next, rest, keyField, key);
    } else {
      assert rest[i - 1] == rows[i];
      InsertRowsLastWriterWins(next, rest, keyField, i - 1, field);
    }
  }

  // ----------------------------------------------------------- the scripts

  /** The first script: `social_media`, keyed by `Post ID`, from an empty table. */
  function InsertV1(rows: seq<Row>): Outcome {
    InsertRows(map[], rows, "Post ID")
  }

  /** `sum(1 for _ in table.scan())` after a complete first-script load: one row per distinct stored key. */
  lemma InsertV1Count(rows: seq<Row>)
    requires AllUsable(rows, "Post ID")
    ensures InsertV1(rows).stop == Finished
    ensures |InsertV1(rows).table| == |StoredKeys(rows, "Post ID")|
  {
    InsertRowsStops(map[], rows, "Post ID");
    InsertRowsKeys(map[], rows, "Post ID");
    assert InsertV1(rows).table.Keys == StoredKeys(rows, "Post ID");
  }

  /**
    A row whose `Post ID` is empty or longer than HBase allows ends the
    first script with the HBase error; the table keeps the puts of the
    rows before it.
   */
  lemma InsertV1RefusedPostId(rows: seq<Row>, i: nat)
    requires i < |rows| && "Post ID" in rows[i] && !ValidRowKey(rows[i]["Post ID"])
    requires AllUsable(rows[..i], "Post ID")
    ensures InsertV1(rows).stop == RowKeyRefused
    ensures InsertV1(rows).table == InsertV1(rows[..i]).table
  {
    InsertRowsStops(map[], rows, "Post ID");
    assert forall j :: 0 <= j < i ==> rows[..i][j] == rows[j];
    assert FirstUnusable(rows, "Post ID") == i;
  }

  /** One entry of the second script's list. */
  datatype Config = Config(rows: seq<Row>, tableName: string, rowKey: string)

  /** The stored tables, by name. */
  type Store = map<string, Table>

  predicate StoreWellFormed(store: Store) {
    forall name :: name in store ==> WellFormed(store[name])
  }

  /** How the second script ended: the tables, and why. */
  datatype Run = Run(store: Store, stop: Stop)

  /**
    The second script's loop: each configured file is loaded into its
    table, created empty when missing; a row that raises stops the script.
   */
  function InsertConfigs(store: Store, configs: seq<Config>): (r: Run)
    requires StoreWellFormed(store)
    ensures StoreWellFormed(r.store)
    ensures forall name :: name in store ==> name in r.store
    decreases |configs|
  {
    if configs == [] then Run(store, Finished)
    else
      var config := configs[0];
      var o := InsertRows(GetOr(store, config.tableName, map[]), config.rows, config.rowKey);
      var next := store[config.tableName := o.table];
      if o.stop != Finished then Run(next, o.stop)
      else
        InsertConfigs(next, configs[1..])
  }

  /** Why the second script ends: as the first configured file that does not load completely, if any. */
  function ConfigsStop(configs: seq<Config>): (stop: Stop) {
    if configs == [] then Finished
    else if StopOf(configs[0].rows, configs[0].rowKey) != Finished then StopOf(configs[0].rows, configs[0].rowKey)
    else ConfigsStop(configs[1..])
  }

  /**
    The second script ends as its first file that does not load completely
    ends, and it ends normally exactly when every row of every configured
    file has a key HBase accepts.
   */
  lemma {:induction false} InsertConfigsStops(store: Store, configs: seq<Config>)
    requires StoreWellFormed(store)
    ensures InsertConfigs(store, configs).stop == ConfigsStop(configs)
    ensures InsertConfigs(store, configs).stop == Finished <==>
              forall c :: 0 <= c < |configs| ==> AllUsable(configs[c].rows, configs[c].rowKey)
    decreases |configs|
  {
    if configs != [] {
      var config := configs[0];
      var o := InsertRows(GetOr(store, config.tableName, map[]), config.rows, config.rowKey);
      InsertRowsStops(GetOr(store, config.tableName, map[]), config.rows, config.rowKey);
      if o.stop == Finished {
        InsertConfigsStops(store[config.tableName := o.table], configs[1..]);
        assert forall c :: 1 <= c < |configs| ==> configs[1..][c - 1] == configs[c];
      }
    }
  }

  /** The second script's list: two files, each keyed by `Post ID`. */
  function V2Configs(comments: seq<Row>, posts: seq<Row>): seq<Config> {
    [Config(comments, "reddit_climate_change_comments", "Post ID"),
     Config(posts, "reddit_climate_change_posts", "Post ID")]
  }

  /**
    The second script generalises the first: a list holding only the first
    script's file, table and key field loads the same table with the same
    outcome.
   */
  lemma V2GeneralisesV1(rows: seq<Row>)
    ensures var r := InsertConfigs(map[], [Config(rows, "social_media", "Post ID")]);
            "social_media" in r.store && r.store["social_media"] == InsertV1(rows).table && r.stop == InsertV1(rows).stop
  {
    var configs := [Config(rows, "social_media", "Post ID")];
    assert configs[1..] == [];
  }

  /**
    A complete run of the second script puts each file into its own table,
    and each table holds exactly the keys of that file's rows that have a
    field besides the key.
   */
  lemma V2Tables(comments: seq<Row>, posts: seq<Row>)
    requires AllUsable(comments, "Post ID") && AllUsable(posts, "Post ID")
    ensures var r := InsertConfigs(map[], V2Configs(comments, posts));
            && r.stop == Finished
            && "reddit_climate_change_comments" in r.store
            && "reddit_climate_change_posts" in r.store
            && r.store["reddit_climate_change_comments"].Keys == StoredKeys(comments, "Post ID")
            && r.store["reddit_climate_change_posts"].Keys == StoredKeys(posts, "Post ID")
  {
    var configs := V2Configs(comments, posts);
    var first := InsertRows(map[], comments, "Post ID");
    InsertRowsStops(map[], comments, "Post ID");
    InsertRowsKeys(map[], comments, "Post ID");
    var store: Store := map["reddit_climate_change_comments" := first.table];
    var second := InsertRows(map[], posts, "Post ID");
    InsertRowsStops(map[], posts, "Post ID");
    InsertRowsKeys(map[], posts, "Post ID");
    assert GetOr(store, "reddit_climate_change_posts", map[]) == map[];
    assert configs[1..] == [configs[1]];
    assert configs[1..][1..] == [];
    assert InsertConfigs(map[], configs) == InsertConfigs(store, configs[1..]);
    assert InsertConfigs(store, configs[1..]) == Run(store["reddit_climate_change_posts" := second.table], Finished);
  }
}

=== FILE: numbers.dfy ===
/**
  Decimal rendering and parsing as the loaders rely on it: Python's `str(n)`
  and `{n:08d}`, Python's `int(text)`, the shape of text Python's `float(text)`
  accepts, and Java's `Long.parseLong`.
 */
module Numbers {
  import opened Wrappers
  import opened Text

  predicate IsDigit(c: char) {
    '0' <= c <= '9'
  }

  predicate AllDigits(s: string) {
    forall k :: 0 <= k < |s| ==> IsDigit(s[k])
  }

  function DigitValue(c: char): nat
    requires IsDigit(c)
  {
    c as int - '0' as int
  }

  function DigitChar(d: nat): (c: char)
    requires d < 10
    ensures IsDigit(c) && DigitValue(c) == d
  {
    ('0' as int + d) as char
  }

  /** The value of a string of decimal digits, most significant digit first. */
  function DigitsValue(s: string): nat
    requires AllDigits(s)
  {
    if |s| == 0 then 0 else DigitsValue(s[..|s| - 1]) * 10 + DigitValue(s[|s| - 1])
  }

  /** Python's `str(n)` for a non-negative integer: the shortest decimal digit string. */
  function NatToString(n: nat): (r: string)
    ensures |r| > 0 && AllDigits(r)
    ensures |r| > 1 ==> r[0] != '0'
  {
    if n < 10 then [DigitChar(n)] else NatToString(n / 10) + [DigitChar(n % 10)]
  }

  /** Reading back what `NatToString` wrote gives the number again. */
  lemma {:induction false} NatToStringRoundTrip(n: nat)
    ensures DigitsValue(NatToString(n)) == n
  {
    if n >= 10 {
      var s := NatToString(n);
      assert s[..|s| - 1] == NatToString(n / 10);
      NatToStringRoundTrip(n / 10);
    }
  }

  /** Distinct numbers are written differently. */
  lemma NatToStringInjective(a: nat, b: nat)
    requires NatToString(a) == NatToString(b)
    ensures a == b
  {
    NatToStringRoundTrip(a);
    NatToStringRoundTrip(b);
  }

  /** Python's `str(i)` for any integer. */
  function IntToString(i: int): (r: string)
    ensures |r| > 0
    ensures i >= 0 ==> AllDigits(r)
    ensures i < 0 ==> r[0] == '-' && AllDigits(r[1..])
  {
    if i < 0 then "-" + NatToString(-i) else NatToString(i)
  }

  /** `str(i)` starts with a digit or a minus sign, ends with a digit, has no point and no surrounding blanks. */
  lemma IntToStringShape(i: int)
    ensures var s := IntToString(i);
            (IsDigit(s[0]) || s[0] == '-') && IsDigit(s[|s| - 1]) && '.' !in s && Strip(s) == s
  {
    var s := IntToString(i);
    assert IsDigit(s[|s| - 1]);
    assert forall k :: 0 <= k < |s| ==> IsDigit(s[k]) || s[k] == '-';
    TrimByFixed(s, IsPyWhitespace);
  }

  function Zeros(n: nat): (r: string)
    ensures |r| == n
    ensures forall k :: 0 <= k < n ==> r[k] == '0'
  {
    seq(n, k => '0')
  }

  /** Python's `f"{n:0<width>d}"` for non-negative `n`: `str(n)` left-padded with zeros. */
  function ZeroPadded(n: nat, width: nat): (r: string)
    ensures AllDigits(r)
    ensures |r| >= width && |r| >= |NatToString(n)|
    ensures |r| == width || r == NatToString(n)
    ensures r[|r| - |NatToString(n)|..] == NatToString(n)
    ensures forall k :: 0 <= k < |r| - |NatToString(n)| ==> r[k] == '0'
  {
    var s := NatToString(n);
    if |s| < width then Zeros(width - |s|) + s else s
  }

  /** Leading zeros do not change the value of a digit string. */
  lemma {:induction false} LeadingZeroValue(s: string)
    requires AllDigits(s)
    ensures DigitsValue("0" + s) == DigitsValue(s)
  {
    if |s| > 0 {
      var t := "0" + s;
      assert t[..|t| - 1] == "0" + s[..|s| - 1];
      LeadingZeroValue(s[..|s| - 1]);
    }
  }

  lemma {:induction false} ZerosPrefixValue(z: nat, s: string)
    requires AllDigits(s)
    ensures AllDigits(Zeros(z) + s) && DigitsValue(Zeros(z) + s) == DigitsValue(s)
  {
    if z > 0 {
      ZerosPrefixValue(z - 1, s);
      assert Zeros(z) + s == "0" + (Zeros(z - 1) + s);
      LeadingZeroValue(Zeros(z - 1) + s);
    } else {
      assert Zeros(z) + s == s;
    }
  }

  /** Zero padding is undone by reading the digits back: the padded form determines `n`. */
  lemma ZeroPaddedRoundTrip(n: nat, width: nat)
    ensures DigitsValue(ZeroPadded(n, width)) == n
  {
    var s := NatToString(n);
    NatToStringRoundTrip(n);
    if |s| < width {
      ZerosPrefixValue(width - |s|, s);
    }
  }

  /**
    A Python digit part (PEP 515): a digit, optionally followed by another
    digit part, with at most one underscore in between.
   */
  predicate IsDigitPart(s: string) {
    && |s| > 0
    && IsDigit(s[0])
    && (|s| == 1 || IsDigitPart(s[1..]) || (s[1] == '_' && IsDigitPart(s[2..])))
  }

  /** A digit part holds only digits and underscores, and starts and ends with a digit. */
  lemma {:induction false} DigitPartChars(s: string)
    requires IsDigitPart(s)
    ensures forall k :: 0 <= k < |s| ==> IsDigit(s[k]) || s[k] == '_'
    ensures IsDigit(s[|s| - 1])
  {
    if |s| > 1 {
      if IsDigitPart(s[1..]) {
        DigitPartChars(s[1..]);
      } else {
        DigitPartChars(s[2..]);
      }
    }
  }

  /** Every non-empty run of digits is a digit part. */
  lemma {:induction false} DigitsAreDigitPart(s: string)
    requires |s| > 0 && AllDigits(s)
    ensures IsDigitPart(s)
  {
    if |s| > 1 {
      DigitsAreDigitPart(s[1..]);
    }
  }

  /** The value of a digit part: its digits read with the underscores dropped. */
  function DigitPartValue(s: string): nat
    requires IsDigitPart(s)
  {
    var d := DeleteChar(s, '_');
    DigitPartChars(s);
    DeleteUnderscoresLeavesDigits(s);
    DigitsValue(d)
  }

  lemma DeleteUnderscoresLeavesDigits(s: string)
    requires forall k :: 0 <= k < |s| ==> IsDigit(s[k]) || s[k] == '_'
    ensures AllDigits(DeleteChar(s, '_'))
  {
    var d := DeleteChar(s, '_');
    forall k | 0 <= k < |d|
      ensures IsDigit(d[k])
    {
      assert d[k] in d;
    }
  }

  predicate IsSign(c: char) {
    c == '+' || c == '-'
  }

  /** `s` without its leading sign, if it has one. */
  function Unsigned(s: string): (r: string)
    ensures |r| <= |s|
  {
    if |s| > 0 && IsSign(s[0]) then s[1..] else s
  }

  /** `magnitude`, negated when `s` starts with a minus sign. */
  function ApplySign(s: string, magnitude: nat): int {
    var m: int := magnitude;
    if |s| > 0 && s[0] == '-' then -m else m
  }

  /** Text Python's `int()` accepts once stripped: an optional sign and a digit part. */
  predicate IsPyIntLiteral(t: string) {
    IsDigitPart(Unsigned(t))
  }

  /** The integer an int literal denotes, or `None` when `t` is not one. */
  function ParseIntLiteral(t: string): (r: Option<int>)
    ensures r.Some? <==> IsPyIntLiteral(t)
  {
    if IsPyIntLiteral(t) then Some(ApplySign(t, DigitPartValue(Unsigned(t)))) else None
  }

  /**
    Python's `int(text)` in base 10: surrounding whitespace is ignored, and
    anything other than an optional sign followed by a digit part is a
    `ValueError`, modelled as `None`.
   */
  function PyInt(s: string): (r: Option<int>)
    ensures r.Some? <==> IsPyIntLiteral(Strip(s))
  {
    ParseIntLiteral(Strip(s))
  }

  /** `int(str(i)) == i`. */
  lemma PyIntRoundTrip(i: int)
    ensures ParseIntLiteral(IntToString(i)) == Some(i)
    ensures PyInt(IntToString(i)) == Some(i)
  {
    var s := IntToString(i);
    var n: nat := if i < 0 then -i else i;
    IntToStringShape(i);
    UnsignedIntToString(i);
    NatToStringDigitPart(n);
    assert ApplySign(s, n) == i;
  }

  /** Dropping the sign of `str(i)` leaves `str(abs(i))`. */
  lemma UnsignedIntToString(i: int)
    ensures Unsigned(IntToString(i)) == NatToString(if i < 0 then -i else i)
  {
    var d := NatToString(if i < 0 then -i else i);
    if i < 0 {
      assert IntToString(i)[1..] == d;
    } else {
      assert IsDigit(d[0]);
    }
  }

  /** `str(n)` is a digit part whose value is `n`. */
  lemma NatToStringDigitPart(n: nat)
    ensures IsDigitPart(NatToString(n)) && DigitPartValue(NatToString(n)) == n
  {
    var d := NatToString(n);
    DigitsAreDigitPart(d);
    assert '_' !in d by {
      assert forall k :: 0 <= k < |d| ==> IsDigit(d[k]);
    }
    DeleteAbsent(d, '_');
    NatToStringRoundTrip(n);
  }

  predicate IsExponentMark(c: char) {
    c == 'e' || c == 'E'
  }

  predicate IsPoint(c: char) {
    c == '.'
  }

  /** Python's float mantissa: `digits`, `digits.`, `digits.digits` or `.digits`. */
  predicate IsMantissa(m: string) {
    var p := FirstIndexWhere(m, IsPoint);
    if p == |m| then IsDigitPart(m)
    else
      var whole, frac := m[..p], m[p + 1..];
      (IsDigitPart(whole) && (frac == [] || IsDigitPart(frac))) || (whole == [] && IsDigitPart(frac))
  }

  /** A decimal float body: a mantissa, optionally followed by `e` or `E`, an optional sign and a digit part. */
  predicate IsDecimalFloat(s: string) {
    var e := FirstIndexWhere(s, IsExponentMark);
    if e == |s| then IsMantissa(s) else IsMantissa(s[..e]) && IsDigitPart(Unsigned(s[e + 1..]))
  }

  /**
    Text Python's `float()` accepts once stripped: an optional sign, then
    `inf`, `infinity` or `nan` in any letter case, or a decimal float.
   */
  predicate IsPyFloatLiteral(t: string) {
    var body := Unsigned(t);
    var l := Lower(body);
    l == "inf" || l == "infinity" || l == "nan" || IsDecimalFloat(body)
  }

  /** Every text `int()` accepts is also accepted by `float()`. */
  lemma IntLiteralIsFloatLiteral(t: string)
    requires IsPyIntLiteral(t)
    ensures IsPyFloatLiteral(t)
  {
    var body := Unsigned(t);
    DigitPartChars(body);
    assert forall k :: 0 <= k < |body| ==> !IsExponentMark(body[k]) && !IsPoint(body[k]);
  }

  const LongMin: int := -0x8000_0000_0000_0000
  const LongMax: int := 0x7FFF_FFFF_FFFF_FFFF

  /**
    Java's `Long.parseLong(text)`: an optional `+` or `-` followed by at least
    one ASCII digit, denoting a value in the signed 64-bit range; anything else
    is a `NumberFormatException`, modelled as `None`. No whitespace is skipped.
   */
  function ParseJavaLong(s: string): (r: Option<int>)
    ensures r.Some? ==> LongMin <= r.value <= LongMax
    ensures r.Some? <==> |Unsigned(s)| > 0 && AllDigits(Unsigned(s)) && LongMin <= ApplySign(s, DigitsValue(Unsigned(s))) <= LongMax
    ensures r.Some? ==> r.value == ApplySign(s, DigitsValue(Unsigned(s)))
  {
    var body := Unsigned(s);
    if |body| == 0 || !AllDigits(body) then None
    else
      var v := ApplySign(s, DigitsValue(body));
      if LongMin <= v <= LongMax then Some(v) else None
  }

  /** `Long.parseLong(Long.toString(i)) == i` for every `long` value. */
  lemma ParseJavaLongRoundTrip(i: int)
    requires LongMin <= i <= LongMax
    ensures ParseJavaLong(IntToString(i)) == Some(i)
  {
    NatToStringRoundTrip(if i < 0 then -i else i);
  }

  /** The decimal text of a number outside the `long` range is a `NumberFormatException`. */
  lemma ParseJavaLongRejectsOutOfRange(i: int)
    requires i < LongMin || LongMax < i
    ensures ParseJavaLong(IntToString(i)) == None
  {
    var s := IntToString(i);
    NatToStringRoundTrip(if i < 0 then -i else i);
    if i >= 0 {
      assert Unsigned(s) == s by { assert IsDigit(s[0]); }
    }
    assert ApplySign(s, DigitsValue(Unsigned(s))) == i;
  }
}

=== FILE: sqlite_loader.dfy ===
/**
  The relational baseline loader: each CSV row becomes one 18-column
  insert, text cells cleaned (stripped, sentinels to NULL) and numeric
  cells converted (`.` selects float, anything else must be an integer,
  failures become NULL); the load counts rows and successful inserts and
  commits every 1000 successes and once at the end.
 */
module SqliteLoader {
  import opened Wrappers
  import opened Text
  import opened Numbers
  import opened Columns

  // ------------------------------------------------------------- cells

  /** A value bound to an insert parameter. */
  datatype SqlValue = Null | Text(text: string) | Integer(n: int) | Real(literal: string)

  /** Input both cleaners map to NULL: absent, empty, or stripping to `''`, `nan` or `None` exactly. */
  predicate IsSqlSentinel(value: Option<string>) {
    value.None? || value.value == "" || Strip(value.value) in {"", "nan", "None"}
  }

  /** `clean_value`: NULL for a sentinel, otherwise the stripped text. */
  function CleanValue(value: Option<string>): (r: Option<string>)
    ensures r.None? <==> IsSqlSentinel(value)
    ensures r.Some? ==> r.value == Strip(value.value)
    ensures r.Some? ==> |r.value| > 0 && IsStripped(r.value) && r.value !in {"nan", "None"}
  {
    if IsSqlSentinel(value) then None else Some(Strip(value.value))
  }

  /** Cleaning what is already clean changes nothing. */
  lemma CleanValueIdempotent(value: Option<string>)
    ensures CleanValue(CleanValue(value)) == CleanValue(value)
  {
    if CleanValue(value).Some? {
      StripIdempotent(value.value);
    }
  }

  /** The outcome of `convert_to_number`: an integer, or a float parsed from `literal` (its value is left open). */
  datatype Number = Int(n: int) | Float(literal: string)

  /**
    `convert_to_number`: NULL for a sentinel; text containing `.` goes to
    `float()`, anything else to `int()`; a rejected literal is NULL.
   */
  function ConvertToNumber(value: Option<string>): (r: Option<Number>)
    ensures IsSqlSentinel(value) ==> r.None?
    ensures r.Some? && r.value.Int? ==> '.' !in value.value && PyInt(value.value) == Some(r.value.n)
    ensures r.Some? && r.value.Float? ==> '.' in value.value && r.value.literal == Strip(value.value)
                                           && IsPyFloatLiteral(r.value.literal)
    ensures !IsSqlSentinel(value) && '.' !in value.value && PyInt(value.value).Some? ==> r.Some?
    ensures !IsSqlSentinel(value) && '.' in value.value && IsPyFloatLiteral(Strip(value.value)) ==> r.Some?
  {
    if IsSqlSentinel(value) then None
    else
      var v := value.value;
      if '.' in v then
        if IsPyFloatLiteral(Strip(v)) then Some(Float(Strip(v))) else None
      else
        match PyInt(v)
        case Some(n) => Some(Int(n))
        case None => None
  }

  /** An integer as Python writes it converts back to itself. */
  lemma ConvertToNumberIntRoundTrip(n: int)
    ensures ConvertToNumber(Some(IntToString(n))) == Some(Int(n))
  {
    PyIntRoundTrip(n);
    IntToStringShape(n);
  }

  /**
    Exponent notation without a point takes the `int()` branch and fails,
    so text like `1e5` is stored as NULL.
   */
  lemma ExponentWithoutPointIsNull(mantissa: string, exponent: string)
    requires |mantissa| > 0 && AllDigits(mantissa)
    requires |exponent| > 0 && AllDigits(exponent)
    ensures ConvertToNumber(Some(mantissa + "e" + exponent)) == None
  {
    ExponentText(mantissa, exponent);
  }

  /** Digits, `e`, digits: no point, and not an `int()` literal. */
  lemma ExponentText(mantissa: string, exponent: string)
    requires |mantissa| > 0 && AllDigits(mantissa)
    requires |exponent| > 0 && AllDigits(exponent)
    ensures '.' !in mantissa + "e" + exponent
    ensures PyInt(mantissa + "e" + exponent) == None
  {
    var s := mantissa + "e" + exponent;
    assert s[|mantissa|] == 'e';
    assert forall k :: 0 <= k < |s| ==> IsDigit(s[k]) || s[k] == 'e';
    assert Strip(s) == s by {
      assert s[0] == mantissa[0] && s[|s| - 1] == exponent[|exponent| - 1];
      TrimByFixed(s, IsPyWhitespace);
    }
    assert Unsigned(s) == s;
    if IsDigitPart(s) {
      DigitPartChars(s);
      assert false;
    }
  }

  /** A number is never produced from text `clean_value` would have nulled, and both read the same stripped text. */
  lemma NumberImpliesCleanText(value: Option<string>)
    ensures ConvertToNumber(value).Some? ==> CleanValue(value).Some?
    ensures ConvertToNumber(value).Some? && ConvertToNumber(value).value.Float? ==>
              ConvertToNumber(value).value.literal == CleanValue(value).value
  {
  }

  function FromClean(c: Option<string>): SqlValue {
    match c
    case Some(t) => Text(t)
    case None => Null
  }

  function FromNumber(c: Option<Number>): SqlValue {
    match c
    case Some(Int(n)) => Integer(n)
    case Some(Float(l)) => Real(l)
    case None => Null
  }

  // ------------------------------------------------------------- the row

  /** Which cleaner a column uses. */
  datatype Kind = Cleaned | Numeric

  /** A column of the table: its name, the CSV field it is read from, and its cleaner. */
  datatype Field = Field(column: string, csvField: string, kind: Kind)

  /** The dictionary built by `prepare_data`, in its order. */
  const PreparedFields: seq<Field> := [
    Field("platform", "Platform", Cleaned),
    Field("post_id", "Post ID", Cleaned),
    Field("post_type", "Post Type", Cleaned),
    Field("post_content", "Post Content", Cleaned),
    Field("post_timestamp", "Post Timestamp", Cleaned),
    Field("likes", "Likes", Numeric),
    Field("comments", "Comments", Numeric),
    Field("shares", "Shares", Numeric),
    Field("impressions", "Impressions", Numeric),
    Field("reach", "Reach", Numeric),
    Field("engagement_rate", "Engagement Rate", Numeric),
    Field("audience_age", "Audience Age", Numeric),
    Field("audience_gender", "Audience Gender", Cleaned),
    Field("audience_location", "Audience Location", Cleaned),
    Field("audience_interests", "Audience Interests", Cleaned),
    Field("campaign_id", "Campaign ID", Cleaned),
    Field("sentiment", "Sentiment", Cleaned),
    Field("influencer_id", "Influencer ID", Cleaned)
  ]

  /** The column list of the INSERT statement. */
  const InsertColumns: seq<string> := [
    "platform", "post_id", "post_type", "post_content", "post_timestamp",
    "likes", "comments", "shares", "impressions", "reach", "engagement_rate",
    "audience_age", "audience_gender", "audience_location", "audience_interests",
    "campaign_id", "sentiment", "influencer_id"
  ]

  /** The value one field takes for a row (`row.get` yields nothing for a missing field). */
  function FieldValue(row: Row, f: Field): SqlValue {
    var raw := Lookup(row, f.csvField);
    match f.kind
    case Cleaned => FromClean(CleanValue(raw))
    case Numeric => FromNumber(ConvertToNumber(raw))
  }

  /** Column names of a field list are pairwise distinct. */
  predicate DistinctColumns(fields: seq<Field>) {
    forall i, j :: 0 <= i < j < |fields| ==> fields[i].column != fields[j].column
  }

  /** The dictionary for a field list: each column holds what `valueOf` gives its field; no other key. */
  function Prepared(fields: seq<Field>, valueOf: Field -> SqlValue): (data: map<string, SqlValue>)
    requires DistinctColumns(fields)
    ensures forall i :: 0 <= i < |fields| ==> fields[i].column in data && data[fields[i].column] == valueOf(fields[i])
    ensures forall c :: c in data ==> exists i :: 0 <= i < |fields| && fields[i].column == c
  {
    map i | 0 <= i < |fields| :: fields[i].column := valueOf(fields[i])
  }

  /** The field reader of one row, as `Prepared` takes it. */
  function FieldReader(row: Row): Field -> SqlValue {
    f => FieldValue(row, f)
  }

  /** Strings of a sequence are pairwise distinct. */
  predicate DistinctNames(names: seq<string>) {
    forall i, j :: 0 <= i < j < |names| ==> names[i] != names[j]
  }

  lemma PreparedFieldsDistinct()
    ensures DistinctColumns(PreparedFields)
  {
    InsertColumnsDistinct();
    InsertColumnsMatchFields();
  }

  /** No two INSERT columns share both their length and their first letter. */
  lemma InsertColumnsDistinct()
    ensures DistinctNames(InsertColumns)
  {
    forall i, j | 0 <= i < j < |InsertColumns| ensures InsertColumns[i] != InsertColumns[j] {
      assert |InsertColumns[i]| != |InsertColumns[j]| || InsertColumns[i][0] != InsertColumns[j][0];
    }
  }

  /**
    `prepare_data`: one key per column the INSERT names and no other, each
    holding its field's cleaned or converted value.
   */
  function PrepareData(row: Row): (data: map<string, SqlValue>)
    ensures forall c :: c in data <==> c in InsertColumns
    ensures forall i :: 0 <= i < |PreparedFields| ==>
              PreparedFields[i].column in data && data[PreparedFields[i].column] == FieldValue(row, PreparedFields[i])
  {
    PreparedFieldsDistinct();
    InsertColumnsMatchFields();
    var reader := FieldReader(row);
    assert forall f :: reader(f) == FieldValue(row, f);
    Prepared(PreparedFields, reader)
  }

  /** The parameter tuple of the insert: the dictionary read in the INSERT's column order. */
  function InsertTuple(data: map<string, SqlValue>): (t: seq<SqlValue>)
    requires forall i :: 0 <= i < |InsertColumns| ==> InsertColumns[i] in data
    ensures |t| == |InsertColumns|
    ensures forall i :: 0 <= i < |t| ==> t[i] == data[InsertColumns[i]]
  {
    seq(|InsertColumns|, i requires 0 <= i < |InsertColumns| => data[InsertColumns[i]])
  }

  /** The INSERT names the dictionary's columns in the dictionary's order. */
  lemma InsertColumnsMatchFields()
    ensures |InsertColumns| == |PreparedFields|
    ensures forall i :: 0 <= i < |InsertColumns| ==> InsertColumns[i] == PreparedFields[i].column
  {
  }

  /** The tuple inserted for a row: parameter `i` is the value of field `i`. */
  function RowTuple(row: Row): (t: seq<SqlValue>)
    ensures |t| == 18
    ensures forall i :: 0 <= i < 18 ==> t[i] == FieldValue(row, PreparedFields[i])
  {
    InsertColumnsMatchFields();
    PreparedFieldsDistinct();
    InsertTuple(PrepareData(row))
  }

  /** A field missing from the row is NULL, whichever cleaner it uses. */
  lemma MissingFieldIsNull(row: Row, f: Field)
    requires f.csvField !in row
    ensures FieldValue(row, f) == Null
  {
  }

  // ------------------------------------------------------------- the load

  /** How many entries of `s` hold. */
  function CountTrue(s: seq<bool>): nat {
    if s == [] then 0 else CountTrue(s[..|s| - 1]) + (if s[|s| - 1] then 1 else 0)
  }

  const CommitEvery: nat := 1000

  /** The entries of `items` whose verdict holds, in order. */
  function Selected<T>(items: seq<T>, accepted: seq<bool>): (r: seq<T>)
    requires |accepted| == |items|
    ensures |r| == CountTrue(accepted)
  {
    if items == [] then []
    else
      var n := |items| - 1;
      Selected(items[..n], accepted[..n]) + (if accepted[n] then [items[n]] else [])
  }

  /** When every verdict holds, everything is selected. */
  lemma {:induction false} SelectedAll<T>(items: seq<T>, accepted: seq<bool>)
    requires |accepted| == |items|
    requires forall i :: 0 <= i < |accepted| ==> accepted[i]
    ensures Selected(items, accepted) == items
  {
    if items != [] {
      var n := |items| - 1;
      SelectedAll(items[..n], accepted[..n]);
      assert items == items[..n] + [items[n]];
    }
  }

  /** Every selected entry is one of the accepted ones. */
  lemma {:induction false} SelectedFromAccepted<T>(items: seq<T>, accepted: seq<bool>, k: nat)
    requires |accepted| == |items| && k < |Selected(items, accepted)|
    ensures exists i :: 0 <= i < |items| && accepted[i] && Selected(items, accepted)[k] == items[i]
  {
    var n := |items| - 1;
    var init := Selected(items[..n], accepted[..n]);
    if k < |init| {
      SelectedFromAccepted(items[..n], accepted[..n], k);
      var i :| 0 <= i < n && accepted[..n][i] && init[k] == items[..n][i];
      assert accepted[i] && Selected(items, accepted)[k] == items[i];
    } else {
      assert accepted[n] && Selected(items, accepted)[k] == items[n];
    }
  }

  /**
    The counting loop of `load_data_basic`: every row is counted; row `i`
    is inserted when `accepted[i]` (the database's verdict, which the model
    takes as given); a commit follows every 1000th success, and one more
    closes the load. The loop keeps `successful <= total` after every row.
   */
  method InsertAll<T>(tuples: seq<T>, accepted: seq<bool>) returns (total: nat, successful: nat, commits: nat, inserted: seq<T>)
    requires |accepted| == |tuples|
    ensures total == |tuples|
    ensures inserted == Selected(tuples, accepted)
    ensures successful == CountTrue(accepted) == |inserted|
    ensures commits == successful / CommitEvery + 1
  {
    total, successful, commits, inserted := 0, 0, 0, [];
    while total < |tuples|
      invariant total <= |tuples|
      invariant inserted == Selected(tuples[..total], accepted[..total])
      invariant successful == |inserted| == CountTrue(accepted[..total]) <= total
      invariant commits == successful / CommitEvery
    {
      assert tuples[..total + 1][..total] == tuples[..total];
      assert accepted[..total + 1][..total] == accepted[..total];
      CountTrueBound(accepted[..total + 1]);
      if accepted[total] {
        inserted := inserted + [tuples[total]];
        successful := successful + 1;
        if successful % CommitEvery == 0 {
          commits := commits + 1;
        }
      }
      total := total + 1;
    }
    assert accepted[..total] == accepted;
    assert tuples[..total] == tuples;
    commits := commits + 1;
  }

  /**
    `load_data_basic` without the I/O: the tuples of the rows, inserted
    one by one under the database's verdicts, with the source's counters.
   */
  method LoadBasic(rows: seq<Row>, accepted: seq<bool>) returns (total: nat, successful: nat, commits: nat, inserted: seq<seq<SqlValue>>)
    requires |accepted| == |rows|
    ensures total == |rows|
    ensures successful == CountTrue(accepted) == |inserted| <= total
    ensures commits == successful / CommitEvery + 1
    ensures inserted == Selected(seq(|rows|, i requires 0 <= i < |rows| => RowTuple(rows[i])), accepted)
    ensures (forall i :: 0 <= i < |rows| ==> accepted[i]) ==> |inserted| == |rows| && forall i :: 0 <= i < |rows| ==> inserted[i] == RowTuple(rows[i])
  {
    var tuples := seq(|rows|, i requires 0 <= i < |rows| => RowTuple(rows[i]));
    total, successful, commits, inserted := InsertAll(tuples, accepted);
    CountTrueBound(accepted);
    if forall i :: 0 <= i < |rows| ==> accepted[i] {
      SelectedAll(tuples, accepted);
    }
  }

  /** No more successes than rows: after any prefix of verdicts, `successful_records <= total_records`. */
  lemma {:induction false} CountTrueBound(s: seq<bool>)
    ensures CountTrue(s) <= |s|
  {
    if s != [] {
      CountTrueBound(s[..|s| - 1]);
    }
  }
}

=== FILE: text.dfy ===
/**
  The string operations the loaders use, over ASCII text: Python's `strip`,
  `lower`, `upper`, slicing, `replace` and `in`, and Java's `String.trim`.
 */
module Text {

  /** Characters Python's `str.strip()` removes, restricted to ASCII. */
  predicate IsPyWhitespace(c: char) {
    c == ' ' || (9 <= c as int <= 13) || (28 <= c as int <= 31)
  }

  /** Characters Java's `String.trim()` removes: every code point up to and including the space. */
  predicate IsJavaBlank(c: char) {
    c <= ' '
  }

  /** Drops leading characters satisfying `blank`. */
  function TrimStart(s: string, blank: char -> bool): (r: string)
    ensures |r| <= |s| && r == s[|s| - |r|..]
    ensures forall k :: 0 <= k < |s| - |r| ==> blank(s[k])
    ensures |r| > 0 ==> !blank(r[0])
  {
    if |s| > 0 && blank(s[0]) then TrimStart(s[1..], blank) else s
  }

  /** Drops trailing characters satisfying `blank`. */
  function TrimEnd(s: string, blank: char -> bool): (r: string)
    ensures |r| <= |s| && r == s[..|r|]
    ensures forall k :: |r| <= k < |s| ==> blank(s[k])
    ensures |r| > 0 ==> !blank(r[|r| - 1])
  {
    if |s| > 0 && blank(s[|s| - 1]) then TrimEnd(s[..|s| - 1], blank) else s
  }

  /**
    Removes the blank characters at both ends: the result is a contiguous
    slice of `s`, everything cut away is blank, and what remains neither
    starts nor ends with a blank.
   */
  function TrimBy(s: string, blank: char -> bool): (r: string)
    ensures exists i, j :: 0 <= i <= j <= |s| && r == s[i..j]
                           && (forall k :: 0 <= k < i ==> blank(s[k]))
                           && (forall k :: j <= k < |s| ==> blank(s[k]))
    ensures |r| > 0 ==> !blank(r[0]) && !blank(r[|r| - 1])
  {
    var t := TrimStart(s, blank);
    var r := TrimEnd(t, blank);
    var i := |s| - |t|;
    assert r == s[i..i + |r|];
    r
  }

  /** Python's `str.strip()` with no argument. */
  function Strip(s: string): string {
    TrimBy(s, IsPyWhitespace)
  }

  /** Java's `String.trim()`. */
  function JavaTrim(s: string): string {
    TrimBy(s, IsJavaBlank)
  }

  /** A string with no blank at either end is its own trim. */
  lemma {:induction false} TrimByFixed(s: string, blank: char -> bool)
    requires |s| > 0 ==> !blank(s[0]) && !blank(s[|s| - 1])
    ensures TrimBy(s, blank) == s
  {
    assert TrimStart(s, blank) == s;
    assert TrimEnd(s, blank) == s;
  }

  lemma {:induction false} TrimStartPadded(before: string, rest: string, blank: char -> bool)
    requires forall k :: 0 <= k < |before| ==> blank(before[k])
    requires |rest| > 0 && !blank(rest[0])
    ensures TrimStart(before + rest, blank) == rest
  {
    if before == [] {
      assert before + rest == rest;
    } else {
      assert (before + rest)[1..] == before[1..] + rest;
      TrimStartPadded(before[1..], rest, blank);
    }
  }

  lemma {:induction false} TrimEndPadded(rest: string, after: string, blank: char -> bool)
    requires forall k :: 0 <= k < |after| ==> blank(after[k])
    requires |rest| > 0 && !blank(rest[|rest| - 1])
    ensures TrimEnd(rest + after, blank) == rest
  {
    if after == [] {
      assert rest + after == rest;
    } else {
      var t := rest + after;
      assert t[..|t| - 1] == rest + after[..|after| - 1];
      TrimEndPadded(rest, after[..|after| - 1], blank);
    }
  }

  /** Trimming blank padding off text that neither starts nor ends blank gives back the text. */
  lemma TrimByPadded(before: string, s: string, after: string, blank: char -> bool)
    requires forall k :: 0 <= k < |before| ==> blank(before[k])
    requires forall k :: 0 <= k < |after| ==> blank(after[k])
    requires |s| > 0 && !blank(s[0]) && !blank(s[|s| - 1])
    ensures TrimBy(before + s + after, blank) == s
  {
    assert before + s + after == before + (s + after);
    TrimStartPadded(before, s + after, blank);
    TrimEndPadded(s, after, blank);
  }

  /** Stripping is idempotent. */
  lemma StripIdempotent(s: string)
    ensures Strip(Strip(s)) == Strip(s)
  {
    TrimByFixed(Strip(s), IsPyWhitespace);
  }

  /** A string is blank-free at both ends iff stripping leaves it unchanged. */
  predicate IsStripped(s: string) {
    |s| > 0 ==> !IsPyWhitespace(s[0]) && !IsPyWhitespace(s[|s| - 1])
  }

  function LowerChar(c: char): char {
    if 'A' <= c <= 'Z' then (c as int - 'A' as int + 'a' as int) as char else c
  }

  function UpperChar(c: char): char {
    if 'a' <= c <= 'z' then (c as int - 'a' as int + 'A' as int) as char else c
  }

  /** Python's `str.lower()` on ASCII. */
  function Lower(s: string): (r: string)
    ensures |r| == |s|
    ensures forall k :: 0 <= k < |s| ==> r[k] == LowerChar(s[k])
  {
    seq(|s|, k requires 0 <= k < |s| => LowerChar(s[k]))
  }

  /** Python's `str.upper()` on ASCII. */
  function Upper(s: string): (r: string)
    ensures |r| == |s|
    ensures forall k :: 0 <= k < |s| ==> r[k] == UpperChar(s[k])
  {
    seq(|s|, k requires 0 <= k < |s| => UpperChar(s[k]))
  }

  /** Python's `s[:n]`: the first `n` characters, or all of `s` when it is shorter. */
  function Take(s: string, n: nat): (r: string)
    ensures |r| <= n && |r| <= |s|
    ensures |s| <= n ==> r == s
    ensures n <= |s| ==> |r| == n
    ensures r == s[..|r|]
  {
    if |s| <= n then s else s[..n]
  }

  /** `sub` occurs in `s` starting at index `i`. */
  predicate OccursAt(s: string, sub: string, i: nat) {
    i + |sub| <= |s| && s[i..i + |sub|] == sub
  }

  /** `sub` occurs somewhere in `s`. */
  ghost predicate Occurs(s: string, sub: string) {
    exists i: nat :: OccursAt(s, sub, i)
  }

  /** Compares `sub[k..]` character by character with `s` at offset `i + k`. */
  function MatchFrom(s: string, sub: string, i: nat, k: nat): (b: bool)
    requires i + |sub| <= |s| && k <= |sub|
    ensures b <==> s[i + k..i + |sub|] == sub[k..]
    decreases |sub| - k
  {
    if k == |sub| then true
    else if s[i + k] != sub[k] then false
    else
      var b := MatchFrom(s, sub, i, k + 1);
      assert s[i + k..i + |sub|] == [s[i + k]] + s[i + k + 1..i + |sub|];
      assert sub[k..] == [sub[k]] + sub[k + 1..];
      b
  }

  /** Searches for `sub` in `s` from index `i` onwards. */
  function ContainsFrom(s: string, sub: string, i: nat): (b: bool)
    ensures b <==> exists k: nat :: i <= k && OccursAt(s, sub, k)
    decreases |s| - i
  {
    if i + |sub| > |s| then false
    else if MatchFrom(s, sub, i, 0) then
      assert sub[0..] == sub && OccursAt(s, sub, i);
      true
    else ContainsFrom(s, sub, i + 1)
  }

  /** Python's `sub in s`. */
  function Contains(s: string, sub: string): (b: bool)
    ensures b <==> Occurs(s, sub)
  {
    ContainsFrom(s, sub, 0)
  }

  /** The index of the last occurrence of `c` in `s`, or -1. */
  function LastIndexOf(s: string, c: char): (r: int)
    ensures -1 <= r < |s|
    ensures r >= 0 ==> s[r] == c
    ensures forall k :: r < k < |s| ==> s[k] != c
  {
    if |s| == 0 then -1
    else if s[|s| - 1] == c then |s| - 1
    else LastIndexOf(s[..|s| - 1], c)
  }

  /** Everything after the last `c` (all of `s` when there is none). */
  function AfterLast(s: string, c: char): (r: string)
    ensures forall k :: 0 <= k < |r| ==> r[k] != c
  {
    s[LastIndexOf(s, c) + 1..]
  }

  /** Everything before the last `c` (empty when there is none). */
  function BeforeLast(s: string, c: char): string {
    var i := LastIndexOf(s, c);
    if i < 0 then [] else s[..i]
  }

  /**
    Joining with a separator that does not occur in the tail can be undone:
    the tail is what follows the last separator, the head what precedes it.
   */
  lemma {:induction false} SplitLastJoin(head: string, c: char, tail: string)
    requires c !in tail
    ensures AfterLast(head + [c] + tail, c) == tail
    ensures BeforeLast(head + [c] + tail, c) == head
  {
    var s := head + [c] + tail;
    var i := LastIndexOf(s, c);
    assert s[|head|] == c;
    assert forall k :: |head| < k < |s| ==> s[k] == tail[k - |head| - 1];
    assert i == |head|;
    assert s[i + 1..] == tail;
    assert s[..i] == head;
  }

  /** The index of the first character satisfying `p`, or `|s|` when there is none. */
  function FirstIndexWhere(s: string, p: char -> bool): (r: nat)
    ensures r <= |s|
    ensures r < |s| ==> p(s[r])
    ensures forall k :: 0 <= k < r ==> !p(s[k])
  {
    if |s| == 0 then 0
    else if p(s[0]) then 0
    else 1 + FirstIndexWhere(s[1..], p)
  }

  /** Python's `s.replace(a, b)` for single characters `a` and `b`. */
  function ReplaceChar(s: string, a: char, b: char): (r: string)
    ensures |r| == |s|
    ensures forall k :: 0 <= k < |s| ==> r[k] == (if s[k] == a then b else s[k])
  {
    seq(|s|, k requires 0 <= k < |s| => if s[k] == a then b else s[k])
  }

  /** Python's `s.replace(c, '')`: every `c` removed, everything else kept in order. */
  function DeleteChar(s: string, c: char): (r: string)
    ensures |r| <= |s|
    ensures forall x :: x in r <==> x in s && x != c
  {
    if |s| == 0 then []
    else if s[|s| - 1] == c then DeleteChar(s[..|s| - 1], c)
    else DeleteChar(s[..|s| - 1], c) + [s[|s| - 1]]
  }

  /** Deletion works piece by piece: deleting from a concatenation concatenates the deletions, so order is kept. */
  lemma {:induction false} DeleteCharAppend(s: string, t: string, c: char)
    ensures DeleteChar(s + t, c) == DeleteChar(s, c) + DeleteChar(t, c)
  {
    if |t| > 0 {
      var init := t[..|t| - 1];
      assert (s + t)[..|s + t| - 1] == s + init;
      DeleteCharAppend(s, init, c);
    } else {
      assert s + t == s;
    }
  }

  /** A single character is dropped when it is `c` and kept otherwise. */
  lemma DeleteCharSingle(x: char, c: char)
    ensures DeleteChar([x], c) == if x == c then [] else [x]
  {
    assert [x][..0] == [];
  }

  /** Deleting a character that does not occur changes nothing. */
  lemma {:induction false} DeleteAbsent(s: string, c: char)
    requires c !in s
    ensures DeleteChar(s, c) == s
  {
    if |s| > 0 {
      assert s[..|s| - 1] + [s[|s| - 1]] == s;
      DeleteAbsent(s[..|s| - 1], c);
    }
  }

  /** Text made only of blanks trims to nothing. */
  lemma TrimByAllBlank(s: string, blank: char -> bool)
    requires forall k :: 0 <= k < |s| ==> blank(s[k])
    ensures TrimBy(s, blank) == ""
  {
  }

  /** A string whose first character is not blank keeps a non-empty trim. */
  lemma TrimByKeepsLeadingMark(s: string, blank: char -> bool)
    requires |s| > 0 && !blank(s[0])
    ensures |TrimBy(s, blank)| > 0
  {
  }
}

=== FILE: wrappers.dfy ===
/** The optional-value datatype used for lookups that may miss and parsers that may fail. */
module Wrappers {

  datatype Option<+T> = None | Some(value: T) {

    /** The carried value, or `default` when there is none. */
    function GetOr(default: T): T {
      match this
      case Some(v) => v
      case None => default
    }
  }

  /** Python's `dict.get(key, default)`: the value under `key`, or `default` when it is absent. */
  function GetOr<K, V>(m: map<K, V>, key: K, default: V): (v: V)
    ensures key in m ==> v == m[key]
    ensures key !in m ==> v == default
  {
    if key in m then m[key] else default
  }

  /** Python's `dict.get(key)`: `None` when the key is absent. */
  function Lookup<K, V>(m: map<K, V>, key: K): (r: Option<V>)
    ensures r.Some? <==> key in m
    ensures r.Some? ==> r.value == m[key]
  {
    if key in m then Some(m[key]) else None
  }
}
